=== FILE: README.md ===
# AI support copilot — ticket analysis core in Dafny

The system is a support-ticket service. A client stores a ticket's free-text
description. It then asks `POST /api/tickets/process` to classify the ticket:

- a sentiment model labels the tone;
- an LLM (with a keyword classifier as its fallback) picks one of three
  categories (Técnico, Facturación, Comercial);
- the two confidences are combined;
- the result is written back to the ticket row and returned.

Around that flow sit four more pieces: the request and response models
that validate it, the storage service that reads, updates, lists and counts
ticket rows, a `/health` aggregation, and a global exception handler.

This project models that core as pure functions over immutable data:

| file | module | models |
|---|---|---|
| `basics.dfy` | `Basics` | `Option` and `Result` |
| `text.dfy` | `Text` | the Python string operations used: `strip`, `isspace`, `lower`, `in`, `join`, `[:n]`, `split(sep)[-1]` |
| `models.dfy` | `Models` | the label enums, the description validator, the confidence bound of `AIAnalysisResult`, `ErrorResponse` |
| `ai_service.dfy` | `AiService` | sentiment analysis, locating and reading the LLM's JSON reply, the keyword fallback, the combination step |
| `ticket_store.dfy` | `TicketStore` | the ticket table as a sequence of rows with unique ids; get, create, update, mark-as-processed, filtered/sorted/paged listing, statistics, connectivity |
| `tickets_router.dfy` | `TicketsRouter` | the four `/tickets` endpoints with their 404/422/500 answers |
| `app.dfy` | `App` | `GET /health` and the global exception handler |

The outside world is passed in as parameters:

- The machine-learning models and the JSON/float parsers are the function
  fields of `AiService.Engines`:
  - the sentiment pipeline;
  - the LLM chain (prompt plus Groq call), which answers the reply text or
    fails;
  - `json.loads`;
  - `float()` on a string.
- The database connection is `TicketStore.StorageLink`, which is up or down
  with a message.
- Elapsed clock times are `AiService.Timings`.
- The outcome of constructing a lazily built service is a `Result` or an
  `App.Acquired`.

## Model

| member | source | states |
|---|---|---|
| Text.Strip | python-api/app/models.py:52-56 | `str.strip()`: the result is empty exactly when the input is all whitespace; otherwise it neither starts nor ends with whitespace; and it is the stretch of the input left between an all-whitespace head and an all-whitespace tail |
| Text.TrimStartSkipsSpaces | python-api/app/models.py:52-56 | left-stripping drops exactly the whitespace run before the first non-space character |
| Text.StripIdempotent | python-api/app/models.py:52-56 | stripping a stripped description changes nothing |
| Text.Lower | python-api/app/services/ai_service.py:226 | `str.lower()` maps each character independently and keeps the length |
| Text.AfterLast | python-api/app/services/ai_service.py:205 | `split("/")[-1]`: the result holds no `/`, is a suffix of the input, and is preceded by `/` when shorter |
| Text.JoinTwo | python-api/app/routers/tickets.py:138 | joining the two model names puts one separator between them |
| Models.ParseCategory | python-api/app/models.py:16-20 | `TicketCategory(v)` succeeds exactly on the three member values and yields the member carrying `v` |
| Models.ParseSentiment | python-api/app/models.py:23-27 | `TicketSentiment(v)` succeeds exactly on the three member values and yields the member carrying `v` |
| Models.LabelRoundTrip | python-api/app/models.py:16-27 | every label round-trips through its string value (the values are distinct) |
| Models.ValidateDescription | python-api/app/models.py:43-56 | a description is accepted iff its raw length lies in [10, 5000] and it is not all whitespace; too short/too long are reported as such; the accepted value is the stripped text, non-empty, at most 5000 long, with no surrounding whitespace |
| Models.AcceptedDescriptionMayBeShort | python-api/app/models.py:43-56 | the length bound is checked before stripping, so `"        ok"` is accepted as `"ok"` |
| Models.RevalidationKeepsDescription | python-api/app/models.py:43-56 | validating an accepted description of at least 10 characters again gives it back unchanged |
| Models.CheckAnalysis | python-api/app/models.py:98-104 | an `AIAnalysisResult` is built iff its confidence lies in [0.0, 1.0], and then carries the analysis unchanged |
| Models.NewErrorResponse | python-api/app/models.py:186-205 | an `ErrorResponse` with only its message given is a failure without detail or code |
| AiService.MapSentimentLabel | python-api/app/services/ai_service.py:172-181 | each sentiment is reached from exactly the labels listed for it; any other label is Neutral |
| AiService.FirstMaxFrom | python-api/app/services/ai_service.py:183-190 | the `max` scan returns an entry of maximal score with every earlier entry strictly lower |
| AiService.FirstMaxUnique | python-api/app/services/ai_service.py:183-190 | the first maximal entry is unique, so the scan's answer is determined |
| AiService.TopScoring | python-api/app/services/ai_service.py:183-190 | `max` fails exactly on an empty list; otherwise it picks the first maximal entry |
| AiService.TopSentiment | python-api/app/services/ai_service.py:161-187 | a nested answer gives the first top-scoring entry of its first inner list, a flat one that of the list, a single entry itself; nothing exactly when the list `max` sees is empty |
| AiService.FoundWords | python-api/app/services/ai_service.py:232-233 | the words kept are exactly the listed words occurring in the text, never more than listed |
| AiService.FoundWordsFrom | python-api/app/services/ai_service.py:232-233 | the found words keep the list's order: the first listed word that occurs comes first, followed by the words found after it |
| AiService.CitedPair | python-api/app/services/ai_service.py:232-238 | `found[:2]` are the first two listed words that occur, in list order |
| AiService.MentionsIffFound | python-api/app/services/ai_service.py:232-237 | a word of the list is mentioned exactly when the found list is non-empty |
| AiService.Citation | python-api/app/services/ai_service.py:235-238 | the citation is the header followed by `", ".join(found[:2])`, and is longer than the header whenever a word occurs |
| AiService.SentimentReasoning | python-api/app/services/ai_service.py:222-242 | a positive (negative) verdict with a word of that polarity present yields the header followed by the first two such words in list order, joined by ", "; otherwise the tone wording, chosen by confidence > 0.8 alone |
| AiService.NegativeCitationOrder | python-api/app/services/ai_service.py:230-238 | with exactly the `i`-th and `k`-th negative words among the first `k + 1` present, the reasoning is "Detectadas expresiones negativas: " + word i + ", " + word k, whatever their order in the text |
| AiService.CitationPair | python-api/app/services/ai_service.py:230-238 | for either polarity, when exactly the `i`-th and `k`-th words of the list are among the first `k + 1` present, the citation is the header, word i, ", ", word k |
| AiService.AnalyzeSentiment | python-api/app/services/ai_service.py:150-220 | a failing pipeline or an answer without entries gives the Neutral/0.5 fallback; otherwise the mapped label of the top entry, its score as confidence, the reasoning for that label and score, the elapsed time and the model's last path segment |
| AiService.SentimentIsTopScore | python-api/app/services/ai_service.py:183-192 | on a flat answer the confidence is the highest score and the label is that of the first entry reaching it |
| AiService.SentimentSeesOnlyPrefix | python-api/app/services/ai_service.py:157-205 | two texts agreeing on their first 512 characters get the same sentiment, confidence and model name |
| AiService.FirstIndexOf | python-api/app/services/ai_service.py:270 | the first occurrence of a character, absent exactly when the character is |
| AiService.LastIndexOf | python-api/app/services/ai_service.py:270 | the last occurrence of a character, absent exactly when the character is |
| AiService.JsonSpan | python-api/app/services/ai_service.py:270-275 | the greedy `\{.*\}` match: without a `{` followed by a `}` the whole reply; otherwise a `{`…`}` infix with no `{` before it and no `}` after it |
| AiService.NoBracePairAfterLastClose | python-api/app/services/ai_service.py:270-275 | when the last `}` is not after the first `{`, the pattern has nothing to match and the whole reply is handed on |
| AiService.JsonSpanIdempotent | python-api/app/services/ai_service.py:270-275 | cutting the span out of a span changes nothing |
| AiService.BracedIsOwnSpan | python-api/app/services/ai_service.py:270-275 | a reply that already starts with `{` and ends with `}` is handed on whole |
| AiService.ValidateCategory | python-api/app/services/ai_service.py:278-281 | a category value in the reply is kept; anything else becomes Comercial |
| AiService.ToFloat | python-api/app/services/ai_service.py:288 | `float()` keeps a JSON number and fails on null, arrays and objects |
| AiService.ReadReply | python-api/app/services/ai_service.py:278-292 | a reply is read exactly when the decoded value is an object whose confidence is absent or accepted by `float()`, whose reasoning is absent or a string and whose keywords are absent or a list of strings; present fields are carried over (the category validated, the keywords in order), absent ones take 0.8, "Clasificación automática" and `[]` |
| AiService.Strings | python-api/app/services/ai_service.py:289 | a keyword array is usable exactly when it holds only strings, and then its strings are kept in order |
| AiService.ReadReplyObject | python-api/app/services/ai_service.py:278-292 | reading a reply written out as the four-field object the LLM is asked for gives back exactly that reply |
| AiService.LlmCategoryReply | python-api/app/services/ai_service.py:263-292 | the LLM path yields a reply exactly when the chain answers and its JSON span decodes to a readable object |
| AiService.ClassifyCategory | python-api/app/services/ai_service.py:248-300 | when the chain answers and its JSON span decodes to a readable object: its validated category, its confidence through `float()` or 0.8, its reasoning or the default, its keywords in order or `[]`, the elapsed time and the LLM model's name; otherwise exactly the keyword fallback |
| AiService.KeywordScore | python-api/app/services/ai_service.py:316-318 | a score is at most the list's length and is zero exactly when no keyword occurs |
| AiService.KeywordScoreCountsDistinctWords | python-api/app/services/ai_service.py:316-318 | for a list without repeats the score is the number of distinct keywords present, not the number of occurrences |
| AiService.FallbackScoresCountKeywords | python-api/app/services/ai_service.py:311-318 | the three keyword lists have no repeats, so each score is the number of distinct keywords of its list in the lower-cased text |
| AiService.FirstTopCategory | python-api/app/services/ai_service.py:327-328 | `max(scores, key=scores.get)` picks a top-scoring category, strictly above every category before it in dict order |
| AiService.FallbackScores | python-api/app/services/ai_service.py:308-318 | each score is zero exactly when none of its list's keywords occurs in the lower-cased text, and at most the list's length |
| AiService.FallbackCategory | python-api/app/services/ai_service.py:302-346 | no keyword gives Comercial at 0.5; otherwise the first top category at min(0.6 + 0.1·score, 0.85) ≥ 0.7; never keywords, 0 ms, model "fallback-keywords" |
| AiService.FallbackScoresBounded | python-api/app/services/ai_service.py:311-318 | the three scores are at most 10, 8 and 7 |
| AiService.ProcessTicket | python-api/app/services/ai_service.py:381-405 | category fields come from the category step, sentiment fields from the sentiment step, models used are [sentiment model, category model], and the combined confidence is 0.6 · category + 0.4 · sentiment, hence between the two |
| AiService.FallbackModelsUsed | python-api/app/services/ai_service.py:339-346 | when the LLM path fails, the models list is [sentiment model, "fallback-keywords"] |
| AiService.CombinedConfidenceInUnitRange | python-api/app/services/ai_service.py:391-394 | step confidences in [0, 1] give a combined confidence in [0, 1] |
| AiService.ConfidenceOnlyReply | python-api/app/services/ai_service.py:276-292 | a reply object holding only a confidence is read as category Comercial, the default reasoning, that confidence and no keywords |
| AiService.LlmConfidenceNotClamped | python-api/app/services/ai_service.py:288 | the LLM's confidence flows into the combination unclamped: a reply confidence c with the sentiment fallback gives 0.6·c + 0.2, above 1 once c > 4/3 |
| TicketStore.FindTicket | python-api/app/services/supabase_service.py:58-65 | the row found carries the id and is in the table; none is found exactly when no row has the id |
| TicketStore.FindTicketAt | python-api/app/services/supabase_service.py:58-65 | in a table with unique ids, looking up a row's id finds that row |
| TicketStore.GetTicket | python-api/app/services/supabase_service.py:42-69 | raises exactly when the connection is down; otherwise answers the row with the id or none |
| TicketStore.CreateTicket | python-api/app/services/supabase_service.py:125-157 | the insert succeeds iff the connection is up and the id is new; the row is appended unprocessed with the description and every analysis column empty; an unreachable store raises its message, a taken id "No se pudo crear el ticket"; consistency is preserved |
| TicketStore.CreateThenGet | python-api/app/services/supabase_service.py:125-157 | reading back a created ticket gives the returned row, and every other id reads as before |
| TicketStore.FitModelColumn | python-api/app/services/supabase_service.py:215-221 | at most 200 characters pass unchanged; longer names keep their first 197 characters followed by "..." |
| TicketStore.FitModelColumnIdempotent | python-api/app/services/supabase_service.py:215-221 | fitting a fitted name changes nothing |
| TicketStore.BuildPayload | python-api/app/services/supabase_service.py:195-224 | the payload names exactly the given columns, with the given values except the fitted model name |
| TicketStore.ColumnsNamed | python-api/app/services/supabase_service.py:195-224 | a column is in the payload exactly when its argument is given |
| TicketStore.ApplyChanges | python-api/app/services/supabase_service.py:227 | a column named in the payload takes the payload's value, any other column keeps its own; id, date and description never change |
| TicketStore.ApplyChangesIdempotent | python-api/app/services/supabase_service.py:227 | applying a payload twice is applying it once |
| TicketStore.ReplaceById | python-api/app/services/supabase_service.py:227 | rows with the id get the payload, all other rows are untouched |
| TicketStore.UpdateTicket | python-api/app/services/supabase_service.py:159-237 | succeeds iff the connection is up and a row has the id (else "No se pudo actualizar el ticket <id>"); returns the updated row; nothing else changes |
| TicketStore.UpdateThenGet | python-api/app/services/supabase_service.py:159-237 | after an update ids stay unique and reading the id gives the returned row |
| TicketStore.MarkAsProcessed | python-api/app/services/supabase_service.py:239-276 | all eight analysis columns are set and `processed` becomes true on the rows with the id, other rows unchanged; consistency is preserved |
| TicketStore.Filter | python-api/app/services/supabase_service.py:102-109 | a row is kept iff it matches every given filter (empty category/sentiment strings do not filter) |
| TicketStore.InsertByDate | python-api/app/services/supabase_service.py:112 | inserting into a newest-first list keeps it newest-first and adds exactly the row |
| TicketStore.SortNewestFirst | python-api/app/services/supabase_service.py:112 | `order("created_at", desc=True)` is a newest-first permutation of its input |
| TicketStore.Window | python-api/app/services/supabase_service.py:112 | the inclusive `range(offset, offset+limit-1)` yields at most `limit` rows, a contiguous run of the ordered rows; nothing once `offset` reaches the end; for `offset >= 0` and `limit > 0` exactly the rows at positions `offset` up to `offset+limit-1` that exist |
| TicketStore.WindowKeepsOrder | python-api/app/services/supabase_service.py:112 | a window of a newest-first list is newest-first and drawn from it |
| TicketStore.PageFacts | python-api/app/services/supabase_service.py:102-112 | a page holds only matching rows from the table, newest first, at most `limit` of them |
| TicketStore.GetTickets | python-api/app/services/supabase_service.py:71-119 | raises exactly when the connection is down; otherwise a newest-first page of matching rows, for `offset >= 0` and `limit > 0` exactly the positions `offset` to `offset+limit-1` of the matching rows sorted newest first, and the whole filtered table when the window covers it |
| TicketStore.StatsFromCounts | python-api/app/services/supabase_service.py:338-352 | missing counts read as 0, and pending = total − processed |
| TicketStore.CountProcessed | python-api/app/services/supabase_service.py:342 | the processed count is at most the table size |
| TicketStore.ProcessedPlusPending | python-api/app/services/supabase_service.py:338-352 | processed and pending rows add up to the table size |
| TicketStore.GetStats | python-api/app/services/supabase_service.py:327-360 | raises exactly when the connection is down; otherwise total is the table size, processed the processed rows, pending the others |
| TicketStore.StorageHealthy | python-api/app/services/supabase_service.py:311-325 | the probe reports healthy exactly when the connection is up |
| TicketStore.HealthProbeAgreesWithReads | python-api/app/services/supabase_service.py:311-325 | the probe succeeds exactly when reading a ticket, listing and counting succeed on the same connection |
| TicketsRouter.ModelsColumn | python-api/app/routers/tickets.py:137-141 | the models string fits the column; two names totalling at most 198 characters are stored as "a, b" |
| TicketsRouter.ModelsFittedOnce | python-api/app/routers/tickets.py:137-141 | the router's truncation followed by the store's equals one truncation |
| TicketsRouter.StoredReasoning | python-api/app/routers/tickets.py:148 | the stored reasoning is "Cat: ", then the category reasoning, then a space, a vertical bar, a space and "Sent: ", then the sentiment reasoning, each part at its own position |
| TicketsRouter.RecordAnalysis | python-api/app/routers/tickets.py:143-152 | persisting succeeds iff the write connection is up and the row exists; the row then records every field of the analysis and keeps its id, date and description; other rows are untouched; consistency is preserved |
| TicketsRouter.RecordAndAnswer | python-api/app/routers/tickets.py:143-198 | success iff the row is written and the confidence is in [0, 1]; the write happens whatever the confidence; every failure is 500 with "Error interno al procesar ticket: " followed by the storage message, "No se pudo actualizar el ticket <id>" or the rejected-analysis text |
| TicketsRouter.ProcessValidRequest | python-api/app/routers/tickets.py:103-198 | 404 exactly when the service is built, storage answers and the id is unknown, with nothing written; a service or lookup failure is 500 with "Error interno al procesar ticket: " and the exception text; for a found ticket the answer and table are those of recording and answering its analysis; success exactly when everything answers, the row exists and the confidence is in [0, 1] |
| TicketsRouter.ProcessTicketEndpoint | python-api/app/routers/tickets.py:90-198 | a rejected description answers 422 with its reason and writes nothing; an accepted one is processed in its stripped form |
| TicketsRouter.AnsweredAnalysisIsStored | python-api/app/routers/tickets.py:143-173 | an analysis with confidence in [0, 1] for an existing ticket is answered with success, and the ticket's row then records exactly the analysis returned and keeps its description; the table stays consistent |
| TicketsRouter.RejectedAfterPersisting | python-api/app/routers/tickets.py:143-166 | an analysis with confidence above 1 answers 500, yet the row is already stored as processed with that confidence |
| TicketsRouter.GetTicketEndpoint | python-api/app/routers/tickets.py:210-242 | 200 with the row exactly when storage answers and the id exists; 404 "Ticket <id> no encontrado" exactly when storage answers and it does not; 500 with the storage message when storage is unreachable |
| TicketsRouter.ListTicketsEndpoint | python-api/app/routers/tickets.py:254-287 | succeeds iff storage answers, returning exactly the page `get_tickets` answers (matching table rows, newest first, at most `limit`) with `count` its length; 500 with the storage message otherwise |
| TicketsRouter.StatsEndpoint | python-api/app/routers/tickets.py:299-319 | succeeds iff storage answers, with total = processed + pending = table size; 500 with the storage message otherwise |
| App.ErrorStatusReportsError | python-api/app/main.py:166-169 | every "error: …" status contains the substring "error" |
| App.HealthyDoesNotReportError | python-api/app/main.py:166-169 | "healthy" does not contain "error" |
| App.AiHealth | python-api/app/services/ai_service.py:422-445 | reports exactly the two components; the LLM is always "healthy"; the sentiment model is "healthy" or "error: " + the pipeline's message |
| App.ExceptionStatus | python-api/app/main.py:156-171 | "error: " followed by the message when it has at most 50 characters and by exactly its first 50 characters otherwise; always marked as an error |
| App.StorageReport | python-api/app/main.py:148-157 | one "supabase" entry: "connected" exactly when the service was built and its probe succeeds, "error" when the probe fails, the cut exception text when construction raised; healthy exactly when connected |
| App.AiReport | python-api/app/main.py:159-172 | when the service was built, its own two entries, healthy exactly when the sentiment probe answers; otherwise one "ai_service" entry with the cut exception text, unhealthy |
| App.HealthCheck | python-api/app/main.py:134-194 | an escaping exception answers 503 "unhealthy"; otherwise 200 with the services map exactly the storage entry joined with the analysis entries (the copied `sentiment_model`/`llm_model` values, or the cut exception text under "ai_service"), and no other key; "healthy" exactly when storage is reachable and the sentiment probe succeeds, else "degraded" |
| App.GlobalExceptionHandler | python-api/app/main.py:208-223 | always 500 with the fixed message and code; the exception text is disclosed exactly in the "development" environment |
| App.HandlerBodyIsDefaultErrorResponse | python-api/app/main.py:208-223 | outside development the handler's body is the `ErrorResponse` default for its message with only the code filled in |
| App.DefaultSettingsDiscloseDetail | python-api/app/config.py:19 | with the default environment ("development") the handler discloses the exception text |

## Left out

- Model loading, prompt text, the Groq HTTP call, the transformers pipeline and `json.loads` are not modelled. They are function parameters of `AiService.Engines`.
- Clocks, `updated_at` and the statistics timestamp are left out. Elapsed times are parameters (`AiService.Timings`).
- The database is a sequence of rows. The Supabase client, its transport and its error texts are left out. Each call's connection is a `TicketStore.StorageLink` parameter.
- `AiService.ProcessTicket`: the combined confidence is not rounded to three decimals, because `round` on floats is not modelled. The contract states the exact unrounded value 0.6 · category + 0.4 · sentiment.
- `AiService.AnalyzeSentiment`: the sentiment confidence is likewise not rounded to three decimals. The contract is stated for the raw score.
- `AiService.ReadReply`: a reply whose `category_reasoning` is not a string, or whose `keywords` is not a list of strings, counts as unusable and takes the keyword fallback. In the code such a value is passed on, written to the row, and only the response model then rejects it with a 500. The model treats it like any other malformed reply instead.
- `AiService.ClassifyCategory` inherits that divergence: for such a reply it gives the keyword classification, where the code returns the LLM's odd value.
- `TicketsRouter.ProcessValidRequest` inherits it too: for such a reply the model can answer 200 with the keyword classification stored, where the code writes the odd value to the row and answers 500.
- `AiService.ToFloat`: `float()` on a string is a parameter. Its acceptance of forms such as "inf", "nan" or "1e3" is not modelled.
- `Text.Lower` covers ASCII and Latin-1 capitals only. Other Unicode case mappings are not modelled.
- `Text.IsSpace` uses Python's whitespace code points. It does not consult the Unicode database beyond that list.
- `TicketStore.Window`: how the database answers a range with a negative offset or a non-positive limit is not modelled beyond "at most `limit` rows".
- `TicketStore.UpdateTicket` with an empty payload answers `Ok` with the row unchanged when the row exists. The code sends an empty update to the database; what the database answers to that is not modelled.
- `TicketStore.SortNewestFirst`: the model puts rows with equal `created_at` in one fixed order. The database promises no order among them, so no contract states one.
- `TicketsRouter.AnalysisErrorMessage`: the 500 detail for a rejected analysis is a placeholder. The validation library's own message text is not modelled.
- `TicketsRouter.ProcessTicketEndpoint`: the 422 body is the reason only (`DescriptionError`). The validation library's error list format is not reproduced.
- `TicketsRouter.ProcessValidRequest`: a failure to build the storage service is folded into `lookup` being down. Both give a 500 with the message.
- `TicketStore.Ticket` keeps the columns the core reads or writes. Other table columns are left out.
- `delete_ticket`, `create_ticket`'s HTTP endpoint (there is none), CORS, logging, the debug endpoint, service singletons and application start-up are outside the core.

Some behaviours of the code are easy to miss. The model follows the code in each:

- Fallback `models_used` has two entries, `[sentiment model, "fallback-keywords"]`.
- No step clamps the combined confidence into [0, 1]. An out-of-range LLM confidence therefore makes `AIAnalysisResult` reject the analysis after the row was written (`TicketsRouter.RejectedAfterPersisting`).
- There is no keyword-based sentiment fallback. A failing sentiment pipeline gives Neutral at 0.5.
- The keyword classifier counts distinct keywords present, not occurrences.
- The router's 500 detail always carries the exception text. Only the global handler hides it outside development.

=== FILE: ai_service.dfy ===
/** The multi-model analysis service: a sentiment step (a local transformer
    pipeline), a category step (an LLM reply whose embedded JSON is extracted
    and validated, with a keyword classifier as fallback) and their
    combination into one `Analysis`. The models themselves, the JSON decoder
    and Python's `float()` on strings are given as functions in `Engines`. */
module AiService {
  import opened Basics
  import opened Text
  import opened Models

  /** A value as `json.loads` returns it. */
  datatype Json =
    | JNull
    | JBool(b: bool)
    | JNumber(n: real)
    | JString(s: string)
    | JArray(items: seq<Json>)
    | JObject(fields: map<string, Json>)

  /** One `{label, score}` entry of the sentiment pipeline's answer. */
  datatype LabelScore = LabelScore(name: string, score: real)

  /** The shapes the sentiment pipeline may answer in: a list holding a list
      of entries, a flat list of entries, or one entry. */
  datatype SentimentOutput =
    | Nested(rows: seq<seq<LabelScore>>)
    | Flat(entries: seq<LabelScore>)
    | Single(entry: LabelScore)

  /** What the service calls but does not implement: the configured model
      names, the sentiment pipeline, the prompt-plus-LLM chain (given the
      description, it answers the reply text or fails), `json.loads` and
      Python's `float()` applied to a string. */
  datatype Engines = Engines(
    sentimentModel: string,
    groqModel: string,
    sentimentPipeline: string -> Result<SentimentOutput, string>,
    categoryChain: string -> Result<string, string>,
    decodeJson: string -> Option<Json>,
    parseFloat: string -> Option<real>)

  /** Elapsed times the clock would report, in milliseconds. */
  datatype Timings = Timings(sentimentMs: nat, categoryMs: nat, totalMs: nat)

  datatype SentimentResult = SentimentResult(
    sentiment: Sentiment,
    confidence: real,
    reasoning: string,
    processingTimeMs: nat,
    model: string)

  datatype CategoryResult = CategoryResult(
    category: Category,
    reasoning: string,
    confidence: real,
    keywords: seq<string>,
    processingTimeMs: nat,
    model: string)

  // ---------------------------------------------------------------------
  // Sentiment
  // ---------------------------------------------------------------------

  /** The pipeline only ever sees this many leading characters of the text. */
  const SentimentInputLimit: nat := 512

  const SentimentLabels: map<string, Sentiment> := map[
    "POSITIVE" := Positivo, "NEUTRAL" := Neutral, "NEGATIVE" := Negativo,
    "5 stars" := Positivo, "4 stars" := Positivo, "3 stars" := Neutral,
    "2 stars" := Negativo, "1 star" := Negativo]

  /** The label map with its `Neutral` default: total, and each sentiment is
      reached from exactly the labels listed for it. */
  function MapSentimentLabel(name: string): (r: Sentiment)
    ensures r == Positivo <==> name in {"POSITIVE", "5 stars", "4 stars"}
    ensures r == Negativo <==> name in {"NEGATIVE", "2 stars", "1 star"}
    ensures r == Neutral <==> name !in {"POSITIVE", "5 stars", "4 stars", "NEGATIVE", "2 stars", "1 star"}
  {
    if name in SentimentLabels then SentimentLabels[name] else Neutral
  }

  /** Entry `i` is the one `max(entries, key=score)` picks: a maximal score,
      strictly above every entry before it. */
  predicate IsFirstMax(entries: seq<LabelScore>, i: int) {
    && 0 <= i < |entries|
    && (forall j :: 0 <= j < |entries| ==> entries[j].score <= entries[i].score)
    && (forall j :: 0 <= j < i ==> entries[j].score < entries[i].score)
  }

  /** At most one entry is the first maximal one. */
  lemma FirstMaxUnique(entries: seq<LabelScore>, i: int, k: int)
    requires IsFirstMax(entries, i) && IsFirstMax(entries, k)
    ensures i == k
  {
    assert entries[i].score == entries[k].score;
  }

  /** The left-to-right scan of `max`: keep `best` and replace it only by a
      strictly larger score. */
  function FirstMaxFrom(entries: seq<LabelScore>, best: nat, k: nat): (i: nat)
    requires best < k <= |entries|
    requires forall j :: 0 <= j < k ==> entries[j].score <= entries[best].score
    requires forall j :: 0 <= j < best ==> entries[j].score < entries[best].score
    ensures IsFirstMax(entries, i)
    decreases |entries| - k
  {
    if k == |entries| then best
    else if entries[k].score > entries[best].score then FirstMaxFrom(entries, k, k + 1)
    else FirstMaxFrom(entries, best, k + 1)
  }

  /** `max(entries, key=lambda x: x['score'])`, which raises on an empty list. */
  function TopScoring(entries: seq<LabelScore>): (r: Option<LabelScore>)
    ensures r.None? <==> |entries| == 0
    ensures r.Some? ==> exists i :: IsFirstMax(entries, i) && entries[i] == r.value
  {
    if |entries| == 0 then None else Some(entries[FirstMaxFrom(entries, 0, 1)])
  }

  /** The top entry of any answer shape: the first top-scoring entry of the
      first inner list, of the flat list, or the single entry; `None` where
      the source's `max` raises on an empty list. */
  function TopSentiment(out: SentimentOutput): (r: Option<LabelScore>)
    ensures out.Nested? ==> (r.None? <==> |out.rows| == 0 || |out.rows[0]| == 0)
    ensures out.Nested? && r.Some? ==>
      |out.rows| > 0 && exists i :: IsFirstMax(out.rows[0], i) && out.rows[0][i] == r.value
    ensures out.Flat? ==> (r.None? <==> |out.entries| == 0)
    ensures out.Flat? && r.Some? ==> exists i :: IsFirstMax(out.entries, i) && out.entries[i] == r.value
    ensures out.Single? ==> r == Some(out.entry)
  {
    match out
    case Nested(rows) => if |rows| > 0 then TopScoring(rows[0]) else None
    case Flat(entries) => TopScoring(entries)
    case Single(entry) => Some(entry)
  }

  const PositiveWords: seq<string> :=
    ["excelente", "genial", "gracias", "perfecto", "bien", "bueno", "feliz", "contento"]
  const NegativeWords: seq<string> :=
    ["problema", "error", "no funciona", "mal", "urgente", "frustrado", "malo", "caído"]

  /** `[w for w in words if w in text]`. */
  function FoundWords(words: seq<string>, text: string): (r: seq<string>)
    ensures |r| <= |words|
    ensures forall w :: w in r <==> w in words && Contains(text, w)
  {
    if |words| == 0 then []
    else (if Contains(text, words[0]) then [words[0]] else []) + FoundWords(words[1..], text)
  }

  /** The found words keep the list's order: from any position on, the
      first word of the list that occurs comes first, followed by the words
      found after it. */
  lemma {:induction false} FoundWordsFrom(words: seq<string>, text: string, from: nat, i: nat)
    requires from <= i < |words| && Contains(text, words[i])
    requires forall j :: from <= j < i ==> !Contains(text, words[j])
    ensures FoundWords(words[from..], text) == [words[i]] + FoundWords(words[i + 1..], text)
    decreases i - from
  {
    var s := words[from..];
    assert s[0] == words[from] && s[1..] == words[from + 1..];
    if from < i {
      FoundWordsFrom(words, text, from + 1, i);
    }
  }

  /** `found[:2]`: the words a reasoning cites. */
  function Cited(found: seq<string>): (r: seq<string>)
    ensures r <= found
    ensures |r| == if |found| < 2 then |found| else 2
  {
    found[..if |found| < 2 then |found| else 2]
  }

  /** A citation of non-empty words is itself non-empty. */
  lemma CitationNonEmpty(words: seq<string>, text: string)
    requires forall k :: 0 <= k < |words| ==> words[k] != []
    requires |FoundWords(words, text)| > 0
    ensures Join(", ", Cited(FoundWords(words, text))) != []
  {
    var found := FoundWords(words, text);
    assert found[0] in words;
    var cited := Cited(found);
    if |cited| == 2 {
      JoinTwo(", ", cited[0], cited[1]);
    }
  }

  /** When the `i`-th and `k`-th words are the only ones of the first `k + 1`
      that occur (none before `i`, none between), they are the first two
      found, in list order. */
  lemma {:induction false} FoundWordsPair(words: seq<string>, text: string, i: nat, k: nat)
    requires i < k < |words|
    requires Contains(text, words[i]) && Contains(text, words[k])
    requires forall j :: 0 <= j < i ==> !Contains(text, words[j])
    requires forall j :: i + 1 <= j < k ==> !Contains(text, words[j])
    ensures FoundWords(words, text) == [words[i]] + ([words[k]] + FoundWords(words[k + 1..], text))
  {
    FoundWordsFrom(words, text, i + 1, k);
    assert words[0..] == words;
    FoundWordsFrom(words, text, 0, i);
  }

  /** Those two are then the words cited. */
  lemma {:induction false} CitedPair(words: seq<string>, text: string, i: nat, k: nat)
    requires i < k < |words|
    requires Contains(text, words[i]) && Contains(text, words[k])
    requires forall j :: 0 <= j < i ==> !Contains(text, words[j])
    requires forall j :: i + 1 <= j < k ==> !Contains(text, words[j])
    ensures Cited(FoundWords(words, text)) == [words[i], words[k]]
  {
    FoundWordsPair(words, text, i, k);
  }

  const PositiveCitation := "Detectadas expresiones positivas: "
  const NegativeCitation := "Detectadas expresiones negativas: "
  const ToneReasoning := "El tono general del mensaje indica sentimiento "
  const ModerateReasoning := " detectado con confianza moderada"

  /** Some word of `words` occurs in the lower-cased text. */
  predicate Mentions(text: string, words: seq<string>) {
    exists w :: w in words && Contains(Lower(text), w)
  }

  /** A text mentions some word exactly when some word is found in it. */
  lemma MentionsIffFound(text: string, words: seq<string>)
    ensures Mentions(text, words) <==> |FoundWords(words, Lower(text))| > 0
  {
    var found := FoundWords(words, Lower(text));
    assert |found| > 0 ==> found[0] in found;
  }

  /** `header + ", ".join(found[:2])`, `found` being the words of the list
      present in the lower-cased text; longer than the header when any is. */
  function Citation(header: string, words: seq<string>, text: string): (r: string)
    requires forall k :: 0 <= k < |words| ==> words[k] != []
    ensures r == header + Join(", ", Cited(FoundWords(words, Lower(text))))
    ensures Mentions(text, words) ==> header < r
  {
    assert Mentions(text, words) ==> Join(", ", Cited(FoundWords(words, Lower(text)))) != [] by {
      MentionsIffFound(text, words);
      if Mentions(text, words) {
        CitationNonEmpty(words, Lower(text));
      }
    }
    header + Join(", ", Cited(FoundWords(words, Lower(text))))
  }

  /** `_generate_sentiment_reasoning`: cite up to two keywords of the
      detected polarity when any occurs, otherwise describe the tone by the
      confidence. */
  function SentimentReasoning(text: string, sentiment: Sentiment, confidence: real): (r: string)
    ensures sentiment == Positivo && Mentions(text, PositiveWords) ==>
      r == Citation(PositiveCitation, PositiveWords, text) && PositiveCitation < r
    ensures sentiment == Negativo && Mentions(text, NegativeWords) ==>
      r == Citation(NegativeCitation, NegativeWords, text) && NegativeCitation < r
    ensures !(sentiment == Positivo && Mentions(text, PositiveWords))
         && !(sentiment == Negativo && Mentions(text, NegativeWords))
        ==> r == if confidence > 0.8 then ToneReasoning + Lower(SentimentValue(sentiment))
                 else "Sentimiento " + Lower(SentimentValue(sentiment)) + ModerateReasoning
  {
    if sentiment == Positivo && Mentions(text, PositiveWords) then
      Citation(PositiveCitation, PositiveWords, text)
    else if sentiment == Negativo && Mentions(text, NegativeWords) then
      Citation(NegativeCitation, NegativeWords, text)
    else if confidence > 0.8 then ToneReasoning + Lower(SentimentValue(sentiment))
    else "Sentimiento " + Lower(SentimentValue(sentiment)) + ModerateReasoning
  }

  /** A citation of exactly two present words reads `header`, the first,
      a comma and the second. */
  lemma CitationPair(header: string, words: seq<string>, text: string, i: nat, k: nat)
    requires forall j :: 0 <= j < |words| ==> words[j] != []
    requires i < k < |words|
    requires Contains(Lower(text), words[i]) && Contains(Lower(text), words[k])
    requires forall j :: 0 <= j < i ==> !Contains(Lower(text), words[j])
    requires forall j :: i + 1 <= j < k ==> !Contains(Lower(text), words[j])
    ensures Citation(header, words, text) == header + words[i] + ", " + words[k]
  {
    CitedPair(words, Lower(text), i, k);
    JoinTwo(", ", words[i], words[k]);
  }

  /** A negative text citing two negative expressions names the first two of
      the list that occur in it, in the list's order and not the text's:
      "urgente: no funciona" cites "no funciona, urgente". */
  lemma NegativeCitationOrder(text: string, confidence: real, i: nat, k: nat)
    requires i < k < |NegativeWords|
    requires Contains(Lower(text), NegativeWords[i]) && Contains(Lower(text), NegativeWords[k])
    requires forall j :: 0 <= j < i ==> !Contains(Lower(text), NegativeWords[j])
    requires forall j :: i + 1 <= j < k ==> !Contains(Lower(text), NegativeWords[j])
    ensures SentimentReasoning(text, Negativo, confidence)
         == NegativeCitation + NegativeWords[i] + ", " + NegativeWords[k]
  {
    assert Mentions(text, NegativeWords) by {
      assert NegativeWords[i] in NegativeWords;
    }
    CitationPair(NegativeCitation, NegativeWords, text, i, k);
  }

  /** What `analyze_sentiment` answers when anything in it raises. */
  const SentimentFallback := SentimentResult(
    Neutral, 0.5, "No se pudo determinar el sentimiento con precisión", 0, "fallback")

  /** `analyze_sentiment`: run the pipeline on the first 512 characters, take
      the first top-scoring entry and map its label; a pipeline failure or an
      empty answer gives the Neutral/0.5 fallback. */
  function AnalyzeSentiment(eng: Engines, text: string, elapsedMs: nat): (r: SentimentResult)
    ensures var o := eng.sentimentPipeline(Prefix(text, SentimentInputLimit));
      o.Err? || TopSentiment(o.value).None? ==> r == SentimentFallback
    ensures var o := eng.sentimentPipeline(Prefix(text, SentimentInputLimit));
      o.Ok? && TopSentiment(o.value).Some? ==>
        var top := TopSentiment(o.value).value;
        && r.sentiment == MapSentimentLabel(top.name)
        && r.confidence == top.score
        && r.reasoning == SentimentReasoning(text, r.sentiment, top.score)
        && r.processingTimeMs == elapsedMs
        && r.model == AfterLast(eng.sentimentModel, '/')
  {
    match eng.sentimentPipeline(Prefix(text, SentimentInputLimit))
    case Err(_) => SentimentFallback
    case Ok(out) =>
      match TopSentiment(out)
      case None => SentimentFallback
      case Some(top) =>
        var sentiment := MapSentimentLabel(top.name);
        SentimentResult(sentiment, top.score, SentimentReasoning(text, sentiment, top.score),
                        elapsedMs, AfterLast(eng.sentimentModel, '/'))
  }

  /** On a flat answer the confidence is the highest score and the label is
      that of the first entry reaching it. */
  lemma SentimentIsTopScore(eng: Engines, text: string, elapsedMs: nat, entries: seq<LabelScore>)
    requires eng.sentimentPipeline(Prefix(text, SentimentInputLimit)) == Ok(Flat(entries))
    requires |entries| > 0
    ensures var r := AnalyzeSentiment(eng, text, elapsedMs);
      && (forall j :: 0 <= j < |entries| ==> entries[j].score <= r.confidence)
      && exists i :: IsFirstMax(entries, i) && r.confidence == entries[i].score
                     && r.sentiment == MapSentimentLabel(entries[i].name)
  {
    var top := TopSentiment(Flat(entries)).value;
    var i :| IsFirstMax(entries, i) && entries[i] == top;
  }

  /** Only the first 512 characters decide the sentiment, its confidence and
      the model named; the reasoning still reads the whole text. */
  lemma SentimentSeesOnlyPrefix(eng: Engines, a: string, b: string, elapsedMs: nat)
    requires Prefix(a, SentimentInputLimit) == Prefix(b, SentimentInputLimit)
    ensures AnalyzeSentiment(eng, a, elapsedMs).sentiment == AnalyzeSentiment(eng, b, elapsedMs).sentiment
    ensures AnalyzeSentiment(eng, a, elapsedMs).confidence == AnalyzeSentiment(eng, b, elapsedMs).confidence
    ensures AnalyzeSentiment(eng, a, elapsedMs).model == AnalyzeSentiment(eng, b, elapsedMs).model
  {
  }

  // ---------------------------------------------------------------------
  // Locating the JSON object in the LLM reply
  // ---------------------------------------------------------------------

  function FirstIndexOf(s: string, c: char): (r: Option<nat>)
    ensures r.None? <==> c !in s
    ensures r.Some? ==> r.value < |s| && s[r.value] == c && c !in s[..r.value]
  {
    if |s| == 0 then None
    else if s[0] == c then Some(0)
    else match FirstIndexOf(s[1..], c)
      case None => None
      case Some(i) =>
        assert s[..i + 1] == [s[0]] + s[1..][..i];
        Some(i + 1)
  }

  function LastIndexOf(s: string, c: char): (r: Option<nat>)
    ensures r.None? <==> c !in s
    ensures r.Some? ==> r.value < |s| && s[r.value] == c && c !in s[r.value + 1..]
  {
    if |s| == 0 then None
    else if s[|s| - 1] == c then Some(|s| - 1)
    else match LastIndexOf(s[..|s| - 1], c)
      case None =>
        assert s == s[..|s| - 1] + [s[|s| - 1]];
        None
      case Some(i) =>
        assert s[i + 1..] == s[..|s| - 1][i + 1..] + [s[|s| - 1]];
        Some(i)
  }

  /** Some `}` follows some `{`: the regex `\{.*\}` (with DOTALL) matches. */
  predicate HasBracePair(s: string) {
    exists i, j :: 0 <= i < j < |s| && s[i] == '{' && s[j] == '}'
  }

  /** When the last `}` comes no later than the first `{`, no `}` follows a `{`. */
  lemma NoBracePairAfterLastClose(content: string, i: nat, j: nat)
    requires j <= i < |content| && '{' !in content[..i]
    requires j < |content| && '}' !in content[j + 1..]
    ensures !HasBracePair(content)
  {
    forall a | 0 <= a < i ensures content[a] != '{' {
      assert content[..i][a] == content[a];
    }
    forall b | j < b < |content| ensures content[b] != '}' {
      assert content[j + 1..][b - j - 1] == content[b];
    }
  }

  /** The text handed to `json.loads`: from the first `{` to the last `}`
      when a `}` follows a `{`, otherwise the whole reply. */
  function JsonSpan(content: string): (r: string)
    ensures !HasBracePair(content) ==> r == content
    ensures HasBracePair(content) ==> 2 <= |r| && r[0] == '{' && r[|r| - 1] == '}'
    ensures HasBracePair(content) ==>
      exists i | 0 <= i <= |content| - |r| ::
        r <= content[i..] && '{' !in content[..i] && '}' !in content[i + |r|..]
  {
    match (FirstIndexOf(content, '{'), LastIndexOf(content, '}'))
    case (Some(i), Some(j)) =>
      if i < j then
        assert content[i..][..j + 1 - i] == content[i..j + 1];
        content[i..j + 1]
      else
        NoBracePairAfterLastClose(content, i, j);
        content
    case _ => content
  }

  /** A text that opens with `{` and closes with `}` is its own span. */
  lemma BracedIsOwnSpan(r: string)
    requires 2 <= |r| && r[0] == '{' && r[|r| - 1] == '}'
    ensures JsonSpan(r) == r
  {
    assert HasBracePair(r);
    assert FirstIndexOf(r, '{') == Some(0);
    assert LastIndexOf(r, '}') == Some(|r| - 1);
    assert r[0..|r|] == r;
  }

  /** Extracting the span of an extracted span changes nothing. */
  lemma JsonSpanIdempotent(content: string)
    ensures JsonSpan(JsonSpan(content)) == JsonSpan(content)
  {
    if HasBracePair(content) {
      BracedIsOwnSpan(JsonSpan(content));
    }
  }

  // ---------------------------------------------------------------------
  // Category via the LLM reply
  // ---------------------------------------------------------------------

  /** `result.get(key)` on a decoded object. */
  function Field(fields: map<string, Json>, key: string): Option<Json> {
    if key in fields then Some(fields[key]) else None
  }

  /** `result.get("category", "Comercial")` checked against the label set:
      a category value is kept, anything else (absent, another string,
      another JSON type) becomes Comercial. */
  function ValidateCategory(v: Option<Json>): (r: Category)
    ensures forall c :: v == Some(JString(CategoryValue(c))) ==> r == c
    ensures (forall c :: v != Some(JString(CategoryValue(c)))) ==> r == Comercial
  {
    match v
    case Some(JString(s)) => ParseCategory(s).OrDefault(Comercial)
    case _ => Comercial
  }

  /** Python's `float(v)` on a decoded JSON value; `None` where it raises. */
  function ToFloat(eng: Engines, v: Json): (r: Option<real>)
    ensures v.JNumber? ==> r == Some(v.n)
    ensures v.JNull? || v.JArray? || v.JObject? ==> r.None?
  {
    match v
    case JNumber(n) => Some(n)
    case JBool(b) => Some(if b then 1.0 else 0.0)
    case JString(s) => eng.parseFloat(s)
    case _ => None
  }

  const DefaultConfidence: real := 0.8
  const DefaultCategoryReasoning := "Clasificación automática"

  /** The fields the category step keeps from a decoded reply. */
  datatype LlmReply = LlmReply(category: Category, reasoning: string, confidence: real, keywords: seq<string>)

  /** The fields of a decoded object can all be carried: a present
      confidence is accepted by `float()`, a present reasoning is a string
      and present keywords are an array of strings. */
  predicate UsableFields(eng: Engines, fields: map<string, Json>) {
    && ("confidence" in fields ==> ToFloat(eng, fields["confidence"]).Some?)
    && ("category_reasoning" in fields ==> fields["category_reasoning"].JString?)
    && ("keywords" in fields ==>
          && fields["keywords"].JArray?
          && forall k :: 0 <= k < |fields["keywords"].items| ==> fields["keywords"].items[k].JString?)
  }

  /** A decoded value the category step can use: an object with usable fields. */
  predicate Readable(eng: Engines, decoded: Option<Json>) {
    decoded.Some? && decoded.value.JObject? && UsableFields(eng, decoded.value.fields)
  }

  /** Reads a decoded reply; `None` where the source raises (the decoded
      value is not an object, or `float()` rejects the confidence) and where
      a text field has a type the response model cannot carry. Each present
      field is carried over; each absent one takes its default. */
  function ReadReply(eng: Engines, decoded: Option<Json>): (r: Option<LlmReply>)
    ensures r.Some? <==> Readable(eng, decoded)
    ensures r.Some? ==> r.value.category == ValidateCategory(Field(decoded.value.fields, "category"))
    ensures r.Some? ==> var f := decoded.value.fields;
      r.value.confidence == if "confidence" in f then ToFloat(eng, f["confidence"]).value else DefaultConfidence
    ensures r.Some? ==> var f := decoded.value.fields;
      r.value.reasoning == if "category_reasoning" in f then f["category_reasoning"].s else DefaultCategoryReasoning
    ensures r.Some? && "keywords" !in decoded.value.fields ==> r.value.keywords == []
    ensures r.Some? && "keywords" in decoded.value.fields ==>
      var items := decoded.value.fields["keywords"].items;
      |r.value.keywords| == |items| && forall k :: 0 <= k < |items| ==> items[k] == JString(r.value.keywords[k])
    ensures decoded.Some? && decoded.value.JObject? && Field(decoded.value.fields, "confidence") == Some(JNull) ==> r.None?
  {
    match decoded
    case Some(JObject(fields)) =>
      var confidence :=
        match Field(fields, "confidence")
        case None => Some(DefaultConfidence)
        case Some(v) => ToFloat(eng, v);
      var reasoning :=
        match Field(fields, "category_reasoning")
        case None => Some(DefaultCategoryReasoning)
        case Some(JString(s)) => Some(s)
        case Some(_) => None;
      var keywords :=
        match Field(fields, "keywords")
        case None => Some([])
        case Some(JArray(items)) => Strings(items)
        case Some(_) => None;
      if confidence.Some? && reasoning.Some? && keywords.Some? then
        Some(LlmReply(ValidateCategory(Field(fields, "category")), reasoning.value,
                      confidence.value, keywords.value))
      else None
    case _ => None
  }

  /** The strings of a JSON array that holds only strings. */
  function Strings(items: seq<Json>): (r: Option<seq<string>>)
    ensures r.Some? <==> forall k :: 0 <= k < |items| ==> items[k].JString?
    ensures r.Some? ==> |r.value| == |items| && forall k :: 0 <= k < |items| ==> items[k] == JString(r.value[k])
  {
    if |items| == 0 then Some([])
    else match (items[0], Strings(items[1..]))
      case (JString(s), Some(rest)) => Some([s] + rest)
      case _ => None
  }

  /** A reply written out as the object the prompt asks the LLM for, with
      all four fields. */
  function ReplyObject(reply: LlmReply): Json {
    JObject(map[
      "category" := JString(CategoryValue(reply.category)),
      "category_reasoning" := JString(reply.reasoning),
      "confidence" := JNumber(reply.confidence),
      "keywords" := JArray(seq(|reply.keywords|, k requires 0 <= k < |reply.keywords| => JString(reply.keywords[k])))])
  }

  /** Reading a written-out reply gives back exactly that reply. */
  lemma ReadReplyObject(eng: Engines, reply: LlmReply)
    ensures ReadReply(eng, Some(ReplyObject(reply))) == Some(reply)
  {
    var f := ReplyObject(reply).fields;
    assert "category" in f && "category_reasoning" in f && "confidence" in f && "keywords" in f;
    assert f["confidence"] == JNumber(reply.confidence) by {
      assert "confidence"[1] != "keywords"[1];
    }
    assert f["category_reasoning"] == JString(reply.reasoning) by {
      assert "category_reasoning"[0] != "keywords"[0] && "category_reasoning"[1] != "confidence"[1];
    }
    assert f["category"] == JString(CategoryValue(reply.category)) by {
      assert |"category"| != |"category_reasoning"|;
      assert "category"[0] != "keywords"[0] && "category"[1] != "confidence"[1];
    }
    var r := ReadReply(eng, Some(ReplyObject(reply)));
    assert r.Some?;
    assert r.value.keywords == reply.keywords;
  }

  /** What the LLM answered, cut to its JSON span and decoded; `None` when the
      chain itself fails or the span does not decode. */
  function DecodedReply(eng: Engines, text: string): (r: Option<Json>)
    ensures eng.categoryChain(text).Err? ==> r.None?
    ensures eng.categoryChain(text).Ok? ==> r == eng.decodeJson(JsonSpan(eng.categoryChain(text).value))
  {
    match eng.categoryChain(text)
    case Err(_) => None
    case Ok(content) => eng.decodeJson(JsonSpan(content))
  }

  /** The LLM path of `classify_category` without its fallback: call the
      chain, cut the JSON span out of the reply, decode it and read it. It
      yields a reply exactly when the chain answers and its span decodes to
      a readable object. */
  function LlmCategoryReply(eng: Engines, text: string): (r: Option<LlmReply>)
    ensures r.Some? <==> eng.categoryChain(text).Ok? && Readable(eng, DecodedReply(eng, text))
    ensures r.Some? ==> Some(r.value) == ReadReply(eng, eng.decodeJson(JsonSpan(eng.categoryChain(text).value)))
  {
    ReadReply(eng, DecodedReply(eng, text))
  }

  const FallbackModel := "fallback-keywords"

  /** `classify_category`: the LLM's answer when it can be read, and the
      keyword classifier whenever any step of the LLM path fails. The LLM's
      confidence is passed on as it came, without clamping. */
  function ClassifyCategory(eng: Engines, text: string, elapsedMs: nat): (r: CategoryResult)
    ensures eng.categoryChain(text).Err? ==> r == FallbackCategory(text)
    ensures !Readable(eng, DecodedReply(eng, text)) ==> r == FallbackCategory(text)
    ensures Readable(eng, DecodedReply(eng, text)) ==>
      var f := DecodedReply(eng, text).value.fields;
      && r.category == ValidateCategory(Field(f, "category"))
      && r.confidence == (if "confidence" in f then ToFloat(eng, f["confidence"]).value else DefaultConfidence)
      && r.reasoning == (if "category_reasoning" in f then f["category_reasoning"].s else DefaultCategoryReasoning)
      && r.model == eng.groqModel && r.processingTimeMs == elapsedMs
    ensures Readable(eng, DecodedReply(eng, text)) && "keywords" !in DecodedReply(eng, text).value.fields ==>
      r.keywords == []
    ensures Readable(eng, DecodedReply(eng, text)) && "keywords" in DecodedReply(eng, text).value.fields ==>
      var items := DecodedReply(eng, text).value.fields["keywords"].items;
      |r.keywords| == |items| && forall k :: 0 <= k < |items| ==> items[k] == JString(r.keywords[k])
  {
    match LlmCategoryReply(eng, text)
    case None => FallbackCategory(text)
    case Some(reply) =>
      CategoryResult(reply.category, reply.reasoning, reply.confidence, reply.keywords,
                     elapsedMs, eng.groqModel)
  }

  // ---------------------------------------------------------------------
  // Keyword fallback
  // ---------------------------------------------------------------------

  const TechnicalKeywords: seq<string> :=
    ["internet", "conexión", "no funciona", "error", "caído", "lento", "wifi", "servidor", "app", "sistema"]
  const BillingKeywords: seq<string> :=
    ["factura", "cobro", "pago", "precio", "tarifa", "suscripción", "renovación", "cargo"]
  const CommercialKeywords: seq<string> :=
    ["información", "plan", "producto", "servicio", "contratar", "consulta", "disponible"]

  /** No word appears twice in the list. */
  predicate Distinct(words: seq<string>) {
    forall a, b :: 0 <= a < b < |words| ==> words[a] != words[b]
  }

  /** `sum(1 for k in words if k in text)`. */
  function KeywordScore(words: seq<string>, text: string): (n: nat)
    ensures n <= |words|
    ensures n == 0 <==> forall w :: w in words ==> !Contains(text, w)
  {
    if |words| == 0 then 0
    else
      assert forall w :: w in words <==> w == words[0] || w in words[1..];
      (if Contains(text, words[0]) then 1 else 0) + KeywordScore(words[1..], text)
  }

  /** The distinct words of the list that occur in the text. */
  function Present(words: seq<string>, text: string): set<string> {
    set w | w in words && Contains(text, w)
  }

  /** The score counts the distinct keywords the text contains, not how
      often they occur. */
  lemma {:induction false} KeywordScoreCountsDistinctWords(words: seq<string>, text: string)
    requires Distinct(words)
    ensures KeywordScore(words, text) == |Present(words, text)|
    decreases |words|
  {
    var found := Present(words, text);
    if |words| > 0 {
      var rest := words[1..];
      var foundRest := Present(rest, text);
      assert Distinct(rest) by {
        forall a, b | 0 <= a < b < |rest| ensures rest[a] != rest[b] {
          assert rest[a] == words[a + 1] && rest[b] == words[b + 1];
        }
      }
      KeywordScoreCountsDistinctWords(rest, text);
      assert KeywordScore(rest, text) == |foundRest|;
      assert words[0] !in rest by {
        forall k | 0 <= k < |rest| ensures rest[k] != words[0] {
          assert rest[k] == words[k + 1];
        }
      }
      if Contains(text, words[0]) {
        assert KeywordScore(words, text) == 1 + KeywordScore(rest, text);
        assert forall w :: w in found <==> w == words[0] || w in foundRest;
        assert found == {words[0]} + foundRest;
        assert words[0] !in foundRest;
      } else {
        assert KeywordScore(words, text) == KeywordScore(rest, text);
        assert forall w :: w in found <==> w in foundRest;
        assert found == foundRest;
      }
    } else {
      assert found == {};
    }
  }

  /** The scores of the three categories, as the source's `scores` dict. */
  datatype Scores = Scores(technical: nat, billing: nat, commercial: nat) {
    function Of(c: Category): nat {
      match c
      case Tecnico => technical
      case Facturacion => billing
      case Comercial => commercial
    }
  }

  /** Position of a category in the `scores` dict's insertion order. */
  function Rank(c: Category): nat {
    match c
    case Tecnico => 0
    case Facturacion => 1
    case Comercial => 2
  }

  /** `max(scores, key=scores.get)`: a category of maximal score, and the
      first such in dict order. */
  function FirstTopCategory(s: Scores): (r: Category)
    ensures forall d :: s.Of(d) <= s.Of(r)
    ensures forall d :: Rank(d) < Rank(r) ==> s.Of(d) < s.Of(r)
  {
    if s.technical >= s.billing && s.technical >= s.commercial then Tecnico
    else if s.billing >= s.commercial then Facturacion
    else Comercial
  }

  /** The `scores` dict: per category, how many of its keywords occur in the
      lower-cased text; a score is zero exactly when none does. */
  function FallbackScores(text: string): (s: Scores)
    ensures s.technical == 0 <==> forall w :: w in TechnicalKeywords ==> !Contains(Lower(text), w)
    ensures s.billing == 0 <==> forall w :: w in BillingKeywords ==> !Contains(Lower(text), w)
    ensures s.commercial == 0 <==> forall w :: w in CommercialKeywords ==> !Contains(Lower(text), w)
    ensures s.technical <= |TechnicalKeywords| && s.billing <= |BillingKeywords|
    ensures s.commercial <= |CommercialKeywords|
  {
    var lower := Lower(text);
    Scores(KeywordScore(TechnicalKeywords, lower),
           KeywordScore(BillingKeywords, lower),
           KeywordScore(CommercialKeywords, lower))
  }

  const NoKeywordsReasoning := "No se detectaron keywords específicas, clasificado como consulta comercial"
  const KeywordsReasoning := "Clasificado por keywords relevantes (método de respaldo)"

  function Min(a: real, b: real): real {
    if a <= b then a else b
  }

  function Max(a: real, b: real): real {
    if a <= b then b else a
  }

  /** The decision of the keyword classifier given its scores. */
  function FallbackFromScores(s: Scores): (r: CategoryResult)
    ensures r.keywords == [] && r.processingTimeMs == 0 && r.model == FallbackModel
    ensures 0.5 <= r.confidence <= 0.85
    ensures (forall d :: s.Of(d) == 0) ==> r.category == Comercial && r.confidence == 0.5 && r.reasoning == NoKeywordsReasoning
    ensures (exists d :: s.Of(d) > 0) ==>
      && (forall d :: s.Of(d) <= s.Of(r.category))
      && (forall d :: Rank(d) < Rank(r.category) ==> s.Of(d) < s.Of(r.category))
      && r.confidence == Min(0.6 + 0.1 * s.Of(r.category) as real, 0.85)
      && 0.7 <= r.confidence
      && r.reasoning == KeywordsReasoning
  {
    var category := FirstTopCategory(s);
    var top := s.Of(category);
    if top == 0 then
      CategoryResult(Comercial, NoKeywordsReasoning, 0.5, [], 0, FallbackModel)
    else
      CategoryResult(category, KeywordsReasoning, Min(0.6 + 0.1 * top as real, 0.85), [], 0, FallbackModel)
  }

  /** `_fallback_category_classification`: never fails; no keyword gives
      Comercial at 0.5; otherwise the first top-scoring category at
      min(0.6 + 0.1 * score, 0.85). No keywords, no time, fixed model name. */
  function FallbackCategory(text: string): (r: CategoryResult)
    ensures r.keywords == [] && r.processingTimeMs == 0 && r.model == FallbackModel
    ensures 0.5 <= r.confidence <= 0.85
    ensures var s := FallbackScores(text);
      (forall d :: s.Of(d) == 0) ==> r.category == Comercial && r.confidence == 0.5 && r.reasoning == NoKeywordsReasoning
    ensures var s := FallbackScores(text);
      (exists d :: s.Of(d) > 0) ==>
        && (forall d :: s.Of(d) <= s.Of(r.category))
        && (forall d :: Rank(d) < Rank(r.category) ==> s.Of(d) < s.Of(r.category))
        && r.confidence == Min(0.6 + 0.1 * s.Of(r.category) as real, 0.85)
        && 0.7 <= r.confidence
        && r.reasoning == KeywordsReasoning
  {
    FallbackFromScores(FallbackScores(text))
  }

  /** The three keyword lists have no repeats, so each fallback score is the
      number of distinct keywords of its list present in the text. */
  lemma FallbackScoresCountKeywords(text: string)
    ensures FallbackScores(text).technical == |Present(TechnicalKeywords, Lower(text))|
    ensures FallbackScores(text).billing == |Present(BillingKeywords, Lower(text))|
    ensures FallbackScores(text).commercial == |Present(CommercialKeywords, Lower(text))|
  {
    assert Distinct(TechnicalKeywords);
    assert Distinct(BillingKeywords);
    assert Distinct(CommercialKeywords);
    KeywordScoreCountsDistinctWords(TechnicalKeywords, Lower(text));
    KeywordScoreCountsDistinctWords(BillingKeywords, Lower(text));
    KeywordScoreCountsDistinctWords(CommercialKeywords, Lower(text));
  }

  /** Each fallback score is bounded by its list's length (10, 8 and 7). */
  lemma FallbackScoresBounded(text: string)
    ensures FallbackScores(text).technical <= 10
    ensures FallbackScores(text).billing <= 8
    ensures FallbackScores(text).commercial <= 7
  {
  }

  // ---------------------------------------------------------------------
  // Combination
  // ---------------------------------------------------------------------

  /** `process_ticket`: sentiment step, then category step, combined. Each
      step absorbs its own failures, so this never fails. */
  function ProcessTicket(eng: Engines, description: string, t: Timings): (a: Analysis)
    ensures var s := AnalyzeSentiment(eng, description, t.sentimentMs);
            var c := ClassifyCategory(eng, description, t.categoryMs);
      && a.category == c.category && a.categoryReasoning == c.reasoning && a.keywords == c.keywords
      && a.sentiment == s.sentiment && a.sentimentReasoning == s.reasoning
      && a.modelsUsed == [s.model, c.model]
      && a.confidence == 0.6 * c.confidence + 0.4 * s.confidence
      && Min(c.confidence, s.confidence) <= a.confidence <= Max(c.confidence, s.confidence)
    ensures |a.modelsUsed| == 2 && a.processingTimeMs == t.totalMs
  {
    var s := AnalyzeSentiment(eng, description, t.sentimentMs);
    var c := ClassifyCategory(eng, description, t.categoryMs);
    Analysis(c.category, c.reasoning, s.sentiment, s.reasoning,
             0.6 * c.confidence + 0.4 * s.confidence,
             c.keywords, t.totalMs, [s.model, c.model])
  }

  /** When the LLM reply cannot be used, the second model named is the
      keyword fallback, and the list still has two entries. */
  lemma FallbackModelsUsed(eng: Engines, description: string, t: Timings)
    requires LlmCategoryReply(eng, description).None?
    ensures var a := ProcessTicket(eng, description, t);
      a.modelsUsed == [AnalyzeSentiment(eng, description, t.sentimentMs).model, FallbackModel]
  {
  }

  /** Step confidences in [0, 1] give a combined confidence in [0, 1]. */
  lemma CombinedConfidenceInUnitRange(eng: Engines, description: string, t: Timings)
    requires 0.0 <= ClassifyCategory(eng, description, t.categoryMs).confidence <= 1.0
    requires 0.0 <= AnalyzeSentiment(eng, description, t.sentimentMs).confidence <= 1.0
    ensures 0.0 <= ProcessTicket(eng, description, t).confidence <= 1.0
  {
  }

  /** A reply object carrying only a confidence is read with the default
      category and reasoning and no keywords. */
  lemma ConfidenceOnlyReply(eng: Engines, description: string, c: real)
    requires eng.categoryChain(description).Ok?
    requires eng.decodeJson(JsonSpan(eng.categoryChain(description).value))
             == Some(JObject(map["confidence" := JNumber(c)]))
    ensures LlmCategoryReply(eng, description) == Some(LlmReply(Comercial, DefaultCategoryReasoning, c, []))
  {
    var fields := map["confidence" := JNumber(c)];
    assert "category" !in fields && "category_reasoning" !in fields && "keywords" !in fields by {
      assert "category"[1] != "confidence"[1];
      assert "category_reasoning"[1] != "confidence"[1];
      assert "keywords"[0] != "confidence"[0];
    }
    assert Field(fields, "confidence") == Some(JNumber(c));
  }

  /** An LLM reply's confidence is not clamped: with the sentiment model
      unavailable (its fallback confidence is 0.5) and a reply carrying only
      a confidence `c`, the combined confidence is 0.6 * c + 0.2, which
      exceeds 1 as soon as `c` exceeds 4/3. */
  lemma LlmConfidenceNotClamped(eng: Engines, description: string, t: Timings, c: real)
    requires eng.sentimentPipeline(Prefix(description, SentimentInputLimit)).Err?
    requires eng.categoryChain(description).Ok?
    requires eng.decodeJson(JsonSpan(eng.categoryChain(description).value))
             == Some(JObject(map["confidence" := JNumber(c)]))
    ensures ProcessTicket(eng, description, t).confidence == 0.6 * c + 0.2
    ensures c > 4.0 / 3.0 ==> ProcessTicket(eng, description, t).confidence > 1.0
  {
    ConfidenceOnlyReply(eng, description, c);
    assert ClassifyCategory(eng, description, t.categoryMs).confidence == c;
    assert AnalyzeSentiment(eng, description, t.sentimentMs).confidence == 0.5;
  }
}

=== FILE: app.dfy ===
/** The application shell around the endpoints: the `/health` aggregation of
    the storage and analysis services' own checks, and the handler that turns
    an exception no endpoint caught into a 500 error body. */
module App {
  import opened Basics
  import opened Text
  import opened Models
  import opened AiService
  import opened TicketStore

  /** Obtaining a lazily built service: the service, or the message of the
      exception its construction raised. */
  datatype Acquired<T> = Acquired(service: T) | Failed(message: string)

  /** The settings the shell reads. */
  datatype Settings = Settings(environment: string, appVersion: string)

  const DefaultSettings := Settings("development", "1.0.0")

  const Healthy := "healthy"
  const Degraded := "degraded"
  const Unhealthy := "unhealthy"
  const ErrorPrefix := "error: "

  /** How much of an exception's message the health report keeps. */
  const ExceptionMessageLimit: nat := 50

  /** Python's `"error" in v`: the marker the aggregation looks for. */
  predicate ReportsError(v: string) {
    Contains(v, "error")
  }

  /** A status built from an exception message always carries the marker. */
  lemma ErrorStatusReportsError(message: string)
    ensures ReportsError(ErrorPrefix + message)
  {
    assert "error" <= (ErrorPrefix + message)[0..];
  }

  /** A healthy status never carries the marker. */
  lemma HealthyDoesNotReportError()
    ensures !ReportsError(Healthy)
  {
    forall i | 0 <= i <= |Healthy| - 5 ensures !("error" <= Healthy[i..]) {
      if i == 0 {
        assert Healthy[i..][0] != "error"[0];
      } else if i == 1 {
        assert Healthy[i..][1] != "error"[1];
      } else {
        assert Healthy[i..][0] != "error"[0];
      }
    }
  }

  /** `AIService.health_check`: the sentiment pipeline is probed with
      "test"; the LLM is reported healthy without being called. */
  function AiHealth(eng: Engines): (r: map<string, string>)
    ensures r.Keys == {"sentiment_model", "llm_model"}
    ensures r["llm_model"] == Healthy
    ensures eng.sentimentPipeline("test").Ok? ==> r["sentiment_model"] == Healthy
    ensures eng.sentimentPipeline("test").Err? ==>
      r["sentiment_model"] == ErrorPrefix + eng.sentimentPipeline("test").error
  {
    var sentiment :=
      match eng.sentimentPipeline("test")
      case Ok(_) => Healthy
      case Err(m) => ErrorPrefix + m;
    map["sentiment_model" := sentiment, "llm_model" := Healthy]
  }

  /** The entry a health report keeps for a service whose construction raised:
      the marker and at most the first 50 characters of the message. */
  function ExceptionStatus(message: string): (r: string)
    ensures ErrorPrefix <= r && |r| <= |ErrorPrefix| + ExceptionMessageLimit
    ensures r[|ErrorPrefix|..] <= message
    ensures |message| <= ExceptionMessageLimit ==> r == ErrorPrefix + message
    ensures |message| > ExceptionMessageLimit ==> r == ErrorPrefix + message[..ExceptionMessageLimit]
    ensures ReportsError(r)
  {
    ErrorStatusReportsError(Prefix(message, ExceptionMessageLimit));
    var r := ErrorPrefix + Prefix(message, ExceptionMessageLimit);
    assert r[|ErrorPrefix|..] == Prefix(message, ExceptionMessageLimit);
    r
  }

  /** `dict.get(key, default)`. */
  function Get(m: map<string, string>, key: string, default: string): string {
    if key in m then m[key] else default
  }

  /** The storage half of the aggregation: one `supabase` entry, and whether
      the service was obtained and its probe succeeded. */
  function StorageReport(storage: Acquired<StorageLink>): (r: (map<string, string>, bool))
    ensures r.0.Keys == {"supabase"}
    ensures r.1 <==> storage.Acquired? && StorageHealthy(storage.service)
    ensures storage.Failed? ==> r.0["supabase"] == ExceptionStatus(storage.message)
    ensures storage.Acquired? ==>
      (r.0["supabase"] == "connected" <==> StorageHealthy(storage.service))
    ensures storage.Acquired? && !StorageHealthy(storage.service) ==> r.0["supabase"] == "error"
  {
    match storage
    case Failed(m) => (map["supabase" := ExceptionStatus(m)], false)
    case Acquired(link) =>
      var ok := StorageHealthy(link);
      (map["supabase" := if ok then "connected" else "error"], ok)
  }

  /** The analysis half of the aggregation: the service's own two entries
      when it was obtained, healthy exactly when the sentiment probe
      succeeded; one `ai_service` entry and unhealthy when it was not. */
  function AiReport(ai: Acquired<Engines>): (r: (map<string, string>, bool))
    ensures ai.Failed? ==> r == (map["ai_service" := ExceptionStatus(ai.message)], false)
    ensures ai.Acquired? ==> r.0 == AiHealth(ai.service)
    ensures ai.Acquired? ==> (r.1 <==> ai.service.sentimentPipeline("test").Ok?)
  {
    match ai
    case Failed(m) => (map["ai_service" := ExceptionStatus(m)], false)
    case Acquired(eng) =>
      var health := AiHealth(eng);
      var sentiment := Get(health, "sentiment_model", "unknown");
      var llm := Get(health, "llm_model", "unknown");
      var ok := !ReportsError(Get(health, "sentiment_model", "")) && !ReportsError(Get(health, "llm_model", ""));
      assert ok <==> eng.sentimentPipeline("test").Ok? by {
        HealthyDoesNotReportError();
        if eng.sentimentPipeline("test").Err? {
          ErrorStatusReportsError(eng.sentimentPipeline("test").error);
        }
      }
      (map["sentiment_model" := sentiment, "llm_model" := llm], ok)
  }

  /** The answer of `GET /health`. */
  datatype HealthReport = HealthReport(
    httpStatus: int,
    status: string,
    version: string,
    services: map<string, string>,
    error: Option<string>)

  /** `GET /health`. `storage` and `ai` are the outcomes of obtaining the
      two services; `crash` is an exception escaping the aggregation itself,
      which answers 503. */
  function HealthCheck(storage: Acquired<StorageLink>, ai: Acquired<Engines>, settings: Settings, crash: Option<string>)
    : (h: HealthReport)
    ensures crash.Some? ==> h == HealthReport(503, Unhealthy, settings.appVersion, map[], crash)
    ensures crash.None? ==> h.httpStatus == 200 && h.error.None? && h.version == settings.appVersion
    ensures crash.None? ==> (h.status == Healthy <==>
      storage == Acquired(Up) && ai.Acquired? && ai.service.sentimentPipeline("test").Ok?)
    ensures crash.None? ==> h.status == Healthy || h.status == Degraded
    ensures crash.None? ==> "supabase" in h.services
    ensures crash.None? ==> ("ai_service" in h.services <==> ai.Failed?)
    ensures crash.None? ==> ("sentiment_model" in h.services <==> ai.Acquired?)
    ensures crash.None? && storage.Failed? ==> h.services["supabase"] == ExceptionStatus(storage.message)
    ensures crash.None? && storage.Acquired? ==>
      h.services["supabase"] == if storage.service.Up? then "connected" else "error"
    ensures crash.None? && storage.Acquired? ==>
      (h.services["supabase"] == "connected" <==> StorageHealthy(storage.service))
    ensures crash.None? ==> h.services == StorageReport(storage).0 + AiReport(ai).0
    ensures crash.None? && ai.Acquired? ==>
      h.services["sentiment_model"] == AiHealth(ai.service)["sentiment_model"]
      && h.services["llm_model"] == Healthy
    ensures crash.None? && ai.Failed? ==> h.services["ai_service"] == ExceptionStatus(ai.message)
    ensures crash.None? ==> forall k :: k in h.services ==>
      k in {"supabase", "sentiment_model", "llm_model", "ai_service"}
  {
    match crash
    case Some(m) => HealthReport(503, Unhealthy, settings.appVersion, map[], crash)
    case None =>
      var (storageEntries, storageOk) := StorageReport(storage);
      var (aiEntries, aiOk) := AiReport(ai);
      HealthReport(200, if storageOk && aiOk then Healthy else Degraded, settings.appVersion,
                   storageEntries + aiEntries, None)
  }

  /** The body of the global exception handler's answer. */
  datatype JsonReply = JsonReply(status: int, body: ErrorResponse)

  const InternalErrorMessage := "Error interno del servidor"
  const InternalErrorCode := "INTERNAL_SERVER_ERROR"

  /** The handler for exceptions no endpoint caught: always a 500 failure
      with a fixed message and code; the exception's text is disclosed only
      in the development environment. */
  function GlobalExceptionHandler(settings: Settings, message: string): (r: JsonReply)
    ensures r.status == 500 && !r.body.success
    ensures r.body.error == InternalErrorMessage && r.body.errorCode == Some(InternalErrorCode)
    ensures r.body.detail.Some? <==> settings.environment == "development"
    ensures r.body.detail.Some? ==> r.body.detail.value == message
  {
    var detail := if settings.environment == "development" then Some(message) else None;
    JsonReply(500, NewErrorResponse(InternalErrorMessage).(detail := detail, errorCode := Some(InternalErrorCode)))
  }

  /** Outside development the handler's body is the error response model's
      default for its message, with only the code filled in. */
  lemma HandlerBodyIsDefaultErrorResponse(settings: Settings, message: string)
    requires settings.environment != "development"
    ensures GlobalExceptionHandler(settings, message).body
         == NewErrorResponse(InternalErrorMessage).(errorCode := Some(InternalErrorCode))
  {
  }

  /** With the default settings the handler discloses the exception's text. */
  lemma DefaultSettingsDiscloseDetail(message: string)
    ensures GlobalExceptionHandler(DefaultSettings, message).body.detail == Some(message)
  {
  }
}

=== FILE: basics.dfy ===
/** Failure-carrying datatypes used wherever the service either returns a
    value or raises an exception / returns None. */
module Basics {

  /** Python's `Optional[T]`: a value or `None`. */
  datatype Option<+T> = None | Some(value: T) {

    /** Python's `x if x is not None else fallback`. */
    function OrDefault(fallback: T): T {
      if Some? then value else fallback
    }
  }

  /** Either a value or the message of the exception that was raised instead. */
  datatype Result<+T, +E> = Ok(value: T) | Err(error: E)
}

=== FILE: models.dfy ===
/** The request/response models of the API: the two closed label sets, the
    validation of a process-ticket request's description, the confidence
    bound of an analysis result and the default shape of an error body. */
module Models {
  import opened Basics
  import opened Text

  /** `TicketCategory`: the topic of a ticket. */
  datatype Category = Tecnico | Facturacion | Comercial

  /** `TicketSentiment`: the tone of a ticket. */
  datatype Sentiment = Positivo | Neutral | Negativo

  /** The string value each category member carries. */
  function CategoryValue(c: Category): string {
    match c
    case Tecnico => "Técnico"
    case Facturacion => "Facturación"
    case Comercial => "Comercial"
  }

  /** The string value each sentiment member carries. */
  function SentimentValue(s: Sentiment): string {
    match s
    case Positivo => "Positivo"
    case Neutral => "Neutral"
    case Negativo => "Negativo"
  }

  /** `TicketCategory(v)`: succeeds exactly when `v` is the value of a member. */
  function ParseCategory(v: string): (r: Option<Category>)
    ensures r.Some? ==> CategoryValue(r.value) == v
    ensures forall c :: CategoryValue(c) == v ==> r == Some(c)
  {
    if v == "Técnico" then Some(Tecnico)
    else if v == "Facturación" then Some(Facturacion)
    else if v == "Comercial" then Some(Comercial)
    else None
  }

  /** `TicketSentiment(v)`: succeeds exactly when `v` is the value of a member. */
  function ParseSentiment(v: string): (r: Option<Sentiment>)
    ensures r.Some? ==> SentimentValue(r.value) == v
    ensures forall s :: SentimentValue(s) == v ==> r == Some(s)
  {
    if v == "Positivo" then Some(Positivo)
    else if v == "Neutral" then Some(Neutral)
    else if v == "Negativo" then Some(Negativo)
    else None
  }

  /** Every member survives a trip through its string value, so the values are distinct. */
  lemma LabelRoundTrip(c: Category, s: Sentiment)
    ensures ParseCategory(CategoryValue(c)) == Some(c)
    ensures ParseSentiment(SentimentValue(s)) == Some(s)
  {
  }

  const MinDescriptionLength: nat := 10
  const MaxDescriptionLength: nat := 5000

  /** Why a process-ticket request's description was rejected. */
  datatype DescriptionError = TooShort | TooLong | Blank

  /** `ProcessTicketRequest.description`: the raw length must lie in
      [10, 5000]; only then does the validator reject a blank value and
      replace the value by its stripped form. */
  function ValidateDescription(raw: string): (r: Result<string, DescriptionError>)
    ensures r.Ok? <==> MinDescriptionLength <= |raw| <= MaxDescriptionLength && !AllSpace(raw)
    ensures |raw| < MinDescriptionLength ==> r == Err(TooShort)
    ensures |raw| > MaxDescriptionLength ==> r == Err(TooLong)
    ensures r.Ok? ==> r.value == Strip(raw)
    ensures r.Ok? ==> 0 < |r.value| <= MaxDescriptionLength
    ensures r.Ok? ==> !IsSpace(r.value[0]) && !IsSpace(r.value[|r.value| - 1])
  {
    if |raw| < MinDescriptionLength then Err(TooShort)
    else if |raw| > MaxDescriptionLength then Err(TooLong)
    else
      var v := Strip(raw);
      if |raw| == 0 || |v| == 0 then Err(Blank) else Ok(v)
  }

  /** The length bound is checked before stripping, so an accepted
      description can be shorter than the minimum length. */
  lemma AcceptedDescriptionMayBeShort()
    ensures ValidateDescription("        ok") == Ok("ok")
  {
    var raw := "        ok";
    assert !IsSpace(raw[9]);
    assert AllSpace(raw[..8]);
    TrimStartSkipsSpaces(raw, 8);
    assert raw[8..] == "ok";
    assert TrimEnd("ok") == "ok";
  }

  /** Validating an accepted description again gives it back unchanged,
      provided stripping did not take it below the minimum length. */
  lemma RevalidationKeepsDescription(raw: string)
    requires ValidateDescription(raw).Ok?
    requires |ValidateDescription(raw).value| >= MinDescriptionLength
    ensures ValidateDescription(ValidateDescription(raw).value) == ValidateDescription(raw)
  {
    StripIdempotent(raw);
  }

  /** `AIAnalysisResult`, and the combined analysis the pipeline returns. */
  datatype Analysis = Analysis(
    category: Category,
    categoryReasoning: string,
    sentiment: Sentiment,
    sentimentReasoning: string,
    confidence: real,
    keywords: seq<string>,
    processingTimeMs: nat,
    modelsUsed: seq<string>)

  /** Why constructing an `AIAnalysisResult` failed. */
  datatype AnalysisError = ConfidenceOutOfRange(confidence: real)

  /** Constructing `AIAnalysisResult`: its confidence must lie in [0.0, 1.0]. */
  function CheckAnalysis(a: Analysis): (r: Result<Analysis, AnalysisError>)
    ensures r.Ok? <==> 0.0 <= a.confidence <= 1.0
    ensures r.Ok? ==> r.value == a
    ensures r.Err? ==> r.error.confidence == a.confidence
  {
    if 0.0 <= a.confidence <= 1.0 then Ok(a) else Err(ConfidenceOutOfRange(a.confidence))
  }

  /** `ErrorResponse`: the standard error body. */
  datatype ErrorResponse = ErrorResponse(
    success: bool,
    error: string,
    detail: Option<string>,
    errorCode: Option<string>)

  /** An `ErrorResponse` built from its one required field: the defaults
      make it a failure with no detail and no code. */
  function NewErrorResponse(error: string): (r: ErrorResponse)
    ensures !r.success
    ensures r.error == error
    ensures r.detail.None? && r.errorCode.None?
  {
    ErrorResponse(false, error, None, None)
  }
}

=== FILE: text.dfy ===
/** The handful of Python string operations the service relies on:
    `str.isspace`/`str.strip`, `str.lower`, the `in` substring test,
    `sep.join`, slicing a prefix and `str.split(sep)[-1]`. */
module Text {

  /** Python's `str.isspace()` for one character (the Unicode whitespace set
      `str.strip()` removes). */
  predicate IsSpace(c: char) {
    var n := c as int;
    || 0x09 <= n <= 0x0D
    || 0x1C <= n <= 0x20
    || n == 0x85 || n == 0xA0 || n == 0x1680
    || 0x2000 <= n <= 0x200A
    || n == 0x2028 || n == 0x2029 || n == 0x202F || n == 0x205F || n == 0x3000
  }

  predicate AllSpace(s: string) {
    forall k :: 0 <= k < |s| ==> IsSpace(s[k])
  }

  /** `s.lstrip()`: the longest suffix of `s` that does not start with whitespace. */
  function TrimStart(s: string): (r: string)
    ensures |r| <= |s| && r == s[|s| - |r|..]
    ensures AllSpace(s[..|s| - |r|])
    ensures r != [] ==> !IsSpace(r[0])
    ensures r == [] <==> AllSpace(s)
  {
    if |s| == 0 then s
    else if IsSpace(s[0]) then
      assert AllSpace(s) <==> AllSpace(s[1..]) by {
        assert forall k :: 0 < k < |s| ==> s[k] == s[1..][k - 1];
      }
      TrimStart(s[1..])
    else
      assert !AllSpace(s);
      s
  }

  /** Whitespace before the first non-space character is exactly what `TrimStart` drops. */
  lemma {:induction false} TrimStartSkipsSpaces(s: string, k: nat)
    requires k < |s| && AllSpace(s[..k]) && !IsSpace(s[k])
    ensures TrimStart(s) == s[k..]
    decreases k
  {
    if k > 0 {
      assert IsSpace(s[..k][0]);
      assert s[1..][..k - 1] == s[1..k];
      assert forall j :: 0 <= j < k - 1 ==> s[1..k][j] == s[..k][j + 1];
      TrimStartSkipsSpaces(s[1..], k - 1);
      assert s[1..][k - 1..] == s[k..];
    }
  }

  /** `s.rstrip()`: the longest prefix of `s` that does not end with whitespace. */
  function TrimEnd(s: string): (r: string)
    ensures |r| <= |s| && r == s[..|r|]
    ensures AllSpace(s[|r|..])
    ensures r != [] ==> !IsSpace(r[|r| - 1])
    ensures r == [] <==> AllSpace(s)
  {
    if |s| > 0 && IsSpace(s[|s| - 1]) then TrimEnd(s[..|s| - 1]) else s
  }

  /** `s.strip()`: `s` without leading and trailing whitespace, that is,
      the stretch of `s` left once the whitespace around it is cut off. */
  function Strip(s: string): (r: string)
    ensures |r| <= |s|
    ensures r == [] <==> AllSpace(s)
    ensures r != [] ==> !IsSpace(r[0]) && !IsSpace(r[|r| - 1])
    ensures exists i | 0 <= i <= |s| - |r| :: r <= s[i..] && AllSpace(s[..i]) && AllSpace(s[i + |r|..])
  {
    TrimBothFacts(s);
    var t := TrimStart(s);
    var r := TrimEnd(t);
    var i := |s| - |t|;
    assert r <= s[i..];
    assert s[i + |r|..] == t[|r|..];
    r
  }

  /** Trimming both ends leaves nothing exactly when there was nothing but
      whitespace: what is left after the start is trimmed begins with a
      non-space character unless it is empty. */
  lemma TrimBothFacts(s: string)
    ensures TrimEnd(TrimStart(s)) == [] <==> AllSpace(s)
  {
    var t := TrimStart(s);
    assert AllSpace(t) ==> t == [] by {
      assert t != [] ==> !IsSpace(t[0]);
    }
  }

  /** Stripping an already stripped string changes nothing. */
  lemma StripIdempotent(s: string)
    ensures Strip(Strip(s)) == Strip(s)
  {
    var r := Strip(s);
    if r != [] {
      assert TrimStart(r) == r;
      assert TrimEnd(r) == r;
    }
  }

  /** Python's `str.lower()` on one character, for the Latin-1 range
      (ASCII letters and the accented capitals `À`..`Þ` except `×`). */
  function LowerChar(c: char): (r: char)
    ensures 'A' <= c <= 'Z' ==> r as int == c as int + 32
    ensures !('A' <= c <= 'Z') && !(0xC0 <= c as int <= 0xDE) ==> r == c
  {
    var n := c as int;
    if 'A' <= c <= 'Z' || (0xC0 <= n <= 0xDE && n != 0xD7) then (n + 32) as char else c
  }

  /** `s.lower()`, character by character. */
  function Lower(s: string): (r: string)
    ensures |r| == |s|
    ensures forall k :: 0 <= k < |s| ==> r[k] == LowerChar(s[k])
  {
    seq(|s|, k requires 0 <= k < |s| => LowerChar(s[k]))
  }

  /** Python's `needle in haystack` on strings. */
  predicate Contains(haystack: string, needle: string) {
    exists i | 0 <= i <= |haystack| - |needle| :: needle <= haystack[i..]
  }

  /** `s[:n]` for a non-negative `n`. */
  function Prefix(s: string, n: nat): (r: string)
    ensures |r| == if n < |s| then n else |s|
    ensures r <= s
  {
    if n < |s| then s[..n] else s
  }

  /** `sep.join(xs)`. */
  function Join(sep: string, xs: seq<string>): string
  {
    if |xs| == 0 then "" else if |xs| == 1 then xs[0] else xs[0] + sep + Join(sep, xs[1..])
  }

  /** Joining two strings puts the separator between them once. */
  lemma JoinTwo(sep: string, a: string, b: string)
    ensures Join(sep, [a, b]) == a + sep + b
  {
    assert [a, b][1..] == [b];
  }

  /** `s.split(sep)[-1]`: the longest suffix of `s` free of `sep`. */
  function AfterLast(s: string, sep: char): (r: string)
    ensures sep !in r
    ensures |r| <= |s| && r == s[|s| - |r|..]
    ensures |r| < |s| ==> s[|s| - |r| - 1] == sep
  {
    if |s| == 0 || s[|s| - 1] == sep then "" else AfterLast(s[..|s| - 1], sep) + [s[|s| - 1]]
  }
}

=== FILE: ticket_store.dfy ===
/** The ticket table as the storage service sees it: a sequence of rows in
    insertion order, keyed by a unique id, reached over a connection that
    may be down. Queries become plain filters, sorts and slices. */
module TicketStore {
  import opened Basics

  /** One row of the `tickets` table. */
  datatype Ticket = Ticket(
    id: string,
    createdAt: int,
    description: string,
    category: Option<string>,
    sentiment: Option<string>,
    confidence: Option<real>,
    reasoning: Option<string>,
    keywords: Option<seq<string>>,
    processingTimeMs: Option<int>,
    llmModel: Option<string>,
    processed: bool)

  predicate UniqueIds(rows: seq<Ticket>) {
    forall a, b :: 0 <= a < b < |rows| ==> rows[a].id != rows[b].id
  }

  /** A processed row has its classification filled in. */
  predicate ClassifiedWhenProcessed(t: Ticket) {
    t.processed ==> t.category.Some? && t.sentiment.Some? && t.confidence.Some?
  }

  /** What the table keeps true when written only through `CreateTicket`
      and `MarkAsProcessed`. */
  predicate Consistent(rows: seq<Ticket>) {
    UniqueIds(rows) && forall k :: 0 <= k < |rows| ==> ClassifiedWhenProcessed(rows[k])
  }

  /** The state of the database connection during a call. */
  datatype StorageLink = Up | Down(message: string)

  /** The exceptions the storage service raises. */
  datatype StoreError = Unreachable(message: string) | NotCreated | NotUpdated(id: string)

  /** `str(e)` of a storage exception. */
  function ErrorMessage(e: StoreError): string {
    match e
    case Unreachable(m) => m
    case NotCreated => "No se pudo crear el ticket"
    case NotUpdated(id) => "No se pudo actualizar el ticket " + id
  }

  // ---------------------------------------------------------------------
  // Reads
  // ---------------------------------------------------------------------

  /** The row with this id, if there is one. */
  function FindTicket(rows: seq<Ticket>, id: string): (r: Option<Ticket>)
    ensures r.Some? ==> r.value in rows && r.value.id == id
    ensures r.None? <==> forall k :: 0 <= k < |rows| ==> rows[k].id != id
  {
    if |rows| == 0 then None
    else if rows[0].id == id then Some(rows[0])
    else
      var r := FindTicket(rows[1..], id);
      assert forall k :: 1 <= k < |rows| ==> rows[k] == rows[1..][k - 1];
      r
  }

  /** In a table with unique ids, the row found is the one at the id's index. */
  lemma FindTicketAt(rows: seq<Ticket>, k: int)
    requires UniqueIds(rows) && 0 <= k < |rows|
    ensures FindTicket(rows, rows[k].id) == Some(rows[k])
  {
    var r := FindTicket(rows, rows[k].id);
    var i :| 0 <= i < |rows| && rows[i] == r.value;
    assert rows[i].id == rows[k].id;
  }

  /** `get_ticket`: the row, `None` when no row has the id. */
  function GetTicket(link: StorageLink, rows: seq<Ticket>, id: string): (r: Result<Option<Ticket>, StoreError>)
    ensures link.Down? <==> r.Err?
    ensures r.Ok? && r.value.Some? ==> r.value.value in rows && r.value.value.id == id
    ensures r.Ok? && r.value.None? ==> forall k :: 0 <= k < |rows| ==> rows[k].id != id
  {
    match link
    case Down(m) => Err(Unreachable(m))
    case Up => Ok(FindTicket(rows, id))
  }

  // ---------------------------------------------------------------------
  // Creation
  // ---------------------------------------------------------------------

  /** `create_ticket`: insert a row holding only the description and
      `processed = False`; the id and creation time are the database's. */
  function CreateTicket(link: StorageLink, rows: seq<Ticket>, newId: string, createdAt: int, description: string)
    : (r: Result<(seq<Ticket>, Ticket), StoreError>)
    ensures r.Ok? <==> link.Up? && FindTicket(rows, newId).None?
    ensures r.Ok? ==> r.value.0 == rows + [r.value.1]
    ensures r.Ok? ==> var t := r.value.1;
      && t.id == newId && t.description == description && t.createdAt == createdAt && !t.processed
      && t.category.None? && t.sentiment.None? && t.confidence.None?
      && t.reasoning.None? && t.keywords.None? && t.processingTimeMs.None? && t.llmModel.None?
    ensures r.Err? ==> r == if link.Down? then Err(Unreachable(link.message)) else Err(NotCreated)
    ensures r.Ok? && Consistent(rows) ==> Consistent(r.value.0)
  {
    match link
    case Down(m) => Err(Unreachable(m))
    case Up =>
      if FindTicket(rows, newId).Some? then Err(NotCreated)
      else
        var t := Ticket(newId, createdAt, description, None, None, None, None, None, None, None, false);
        Ok((rows + [t], t))
  }

  /** Appending a row with another id does not change what an id finds. */
  lemma {:induction false} FindTicketAppend(rows: seq<Ticket>, t: Ticket, id: string)
    requires id != t.id
    ensures FindTicket(rows + [t], id) == FindTicket(rows, id)
    decreases |rows|
  {
    if |rows| == 0 {
      assert (rows + [t])[1..] == [];
    } else {
      assert (rows + [t])[1..] == rows[1..] + [t];
      FindTicketAppend(rows[1..], t, id);
    }
  }

  /** Reading back a created ticket gives the row `create_ticket` returned,
      and every other id finds what it found before. */
  lemma {:induction false} CreateThenGet(rows: seq<Ticket>, newId: string, createdAt: int, description: string)
    requires Consistent(rows) && FindTicket(rows, newId).None?
    ensures var (rows', t) := CreateTicket(Up, rows, newId, createdAt, description).value;
      && GetTicket(Up, rows', newId) == Ok(Some(t))
      && forall id :: id != newId ==> GetTicket(Up, rows', id) == GetTicket(Up, rows, id)
  {
    var (rows', t) := CreateTicket(Up, rows, newId, createdAt, description).value;
    FindTicketAt(rows', |rows|);
    forall id | id != newId ensures GetTicket(Up, rows', id) == GetTicket(Up, rows, id) {
      FindTicketAppend(rows, t, id);
    }
  }

  // ---------------------------------------------------------------------
  // Updates
  // ---------------------------------------------------------------------

  /** The optional columns of `update_ticket`, both as its keyword arguments
      (`None` = not given) and as the payload it sends. */
  datatype Changes = Changes(
    category: Option<string>,
    sentiment: Option<string>,
    confidence: Option<real>,
    reasoning: Option<string>,
    keywords: Option<seq<string>>,
    processingTimeMs: Option<int>,
    llmModel: Option<string>,
    processed: Option<bool>)

  datatype Column = CategoryColumn | SentimentColumn | ConfidenceColumn | ReasoningColumn
                  | KeywordsColumn | ProcessingTimeColumn | LlmModelColumn | ProcessedColumn

  /** The change carries a value for the column. */
  predicate Names(c: Changes, col: Column) {
    match col
    case CategoryColumn => c.category.Some?
    case SentimentColumn => c.sentiment.Some?
    case ConfidenceColumn => c.confidence.Some?
    case ReasoningColumn => c.reasoning.Some?
    case KeywordsColumn => c.keywords.Some?
    case ProcessingTimeColumn => c.processingTimeMs.Some?
    case LlmModelColumn => c.llmModel.Some?
    case ProcessedColumn => c.processed.Some?
  }

  const AllColumns: set<Column> := {CategoryColumn, SentimentColumn, ConfidenceColumn, ReasoningColumn,
                                    KeywordsColumn, ProcessingTimeColumn, LlmModelColumn, ProcessedColumn}

  /** The columns a set of changes names. */
  function Columns(c: Changes): set<Column> {
    set col | col in AllColumns && Names(c, col)
  }

  /** A column is named exactly when its change is given. */
  lemma ColumnsNamed(c: Changes)
    ensures CategoryColumn in Columns(c) <==> c.category.Some?
    ensures SentimentColumn in Columns(c) <==> c.sentiment.Some?
    ensures ConfidenceColumn in Columns(c) <==> c.confidence.Some?
    ensures ReasoningColumn in Columns(c) <==> c.reasoning.Some?
    ensures KeywordsColumn in Columns(c) <==> c.keywords.Some?
    ensures ProcessingTimeColumn in Columns(c) <==> c.processingTimeMs.Some?
    ensures LlmModelColumn in Columns(c) <==> c.llmModel.Some?
    ensures ProcessedColumn in Columns(c) <==> c.processed.Some?
  {
  }

  /** Width of the `llm_model` column (VARCHAR(200)). */
  const ModelColumnWidth: nat := 200

  /** Fit a model name into the `llm_model` column: at most 200 characters
      pass unchanged, a longer one keeps its first 197 and gains "...". */
  function FitModelColumn(s: string): (r: string)
    ensures |r| <= ModelColumnWidth
    ensures |s| <= ModelColumnWidth ==> r == s
    ensures |s| > ModelColumnWidth ==> |r| == ModelColumnWidth && r[..197] == s[..197] && r[197..] == "..."
  {
    if |s| > ModelColumnWidth then s[..197] + "..." else s
  }

  /** Fitting a fitted name changes nothing. */
  lemma FitModelColumnIdempotent(s: string)
    ensures FitModelColumn(FitModelColumn(s)) == FitModelColumn(s)
  {
  }

  /** `update_ticket`'s payload: exactly the columns whose argument is not
      `None`, with the given values except that `llm_model` is fitted to
      its column. */
  function BuildPayload(args: Changes): (p: Changes)
    ensures Columns(p) == Columns(args)
    ensures p.llmModel.Some? ==> args.llmModel.Some? && p.llmModel.value == FitModelColumn(args.llmModel.value)
    ensures p.(llmModel := args.llmModel) == args
  {
    match args.llmModel
    case None => args
    case Some(m) => args.(llmModel := Some(FitModelColumn(m)))
  }

  /** The database applying a payload to one row: named columns take the
      payload's value, all other columns keep theirs. */
  function ApplyChanges(t: Ticket, p: Changes): (r: Ticket)
    ensures r.id == t.id && r.createdAt == t.createdAt && r.description == t.description
    ensures CategoryColumn !in Columns(p) ==> r.category == t.category
    ensures SentimentColumn !in Columns(p) ==> r.sentiment == t.sentiment
    ensures ConfidenceColumn !in Columns(p) ==> r.confidence == t.confidence
    ensures ReasoningColumn !in Columns(p) ==> r.reasoning == t.reasoning
    ensures KeywordsColumn !in Columns(p) ==> r.keywords == t.keywords
    ensures ProcessingTimeColumn !in Columns(p) ==> r.processingTimeMs == t.processingTimeMs
    ensures LlmModelColumn !in Columns(p) ==> r.llmModel == t.llmModel
    ensures ProcessedColumn !in Columns(p) ==> r.processed == t.processed
    ensures CategoryColumn in Columns(p) ==> r.category == p.category
    ensures SentimentColumn in Columns(p) ==> r.sentiment == p.sentiment
    ensures ConfidenceColumn in Columns(p) ==> r.confidence == p.confidence
    ensures ReasoningColumn in Columns(p) ==> r.reasoning == p.reasoning
    ensures KeywordsColumn in Columns(p) ==> r.keywords == p.keywords
    ensures ProcessingTimeColumn in Columns(p) ==> r.processingTimeMs == p.processingTimeMs
    ensures LlmModelColumn in Columns(p) ==> r.llmModel == p.llmModel
    ensures ProcessedColumn in Columns(p) ==> r.processed == p.processed.value
  {
    ColumnsNamed(p);
    Overwrite(t, p)
  }

  /** The row with every given value written over its own. */
  function Overwrite(t: Ticket, p: Changes): (r: Ticket)
    ensures r.id == t.id && r.createdAt == t.createdAt && r.description == t.description
    ensures r.category == if p.category.Some? then p.category else t.category
    ensures r.sentiment == if p.sentiment.Some? then p.sentiment else t.sentiment
    ensures r.confidence == if p.confidence.Some? then p.confidence else t.confidence
    ensures r.reasoning == if p.reasoning.Some? then p.reasoning else t.reasoning
    ensures r.keywords == if p.keywords.Some? then p.keywords else t.keywords
    ensures r.processingTimeMs == if p.processingTimeMs.Some? then p.processingTimeMs else t.processingTimeMs
    ensures r.llmModel == if p.llmModel.Some? then p.llmModel else t.llmModel
    ensures r.processed == if p.processed.Some? then p.processed.value else t.processed
  {
    t.(category := if p.category.Some? then p.category else t.category,
       sentiment := if p.sentiment.Some? then p.sentiment else t.sentiment,
       confidence := if p.confidence.Some? then p.confidence else t.confidence,
       reasoning := if p.reasoning.Some? then p.reasoning else t.reasoning,
       keywords := if p.keywords.Some? then p.keywords else t.keywords,
       processingTimeMs := if p.processingTimeMs.Some? then p.processingTimeMs else t.processingTimeMs,
       llmModel := if p.llmModel.Some? then p.llmModel else t.llmModel,
       processed := if p.processed.Some? then p.processed.value else t.processed)
  }

  /** Applying the same payload twice is applying it once. */
  lemma ApplyChangesIdempotent(t: Ticket, p: Changes)
    ensures ApplyChanges(ApplyChanges(t, p), p) == ApplyChanges(t, p)
  {
  }

  /** Every row with the id gets the payload; every other row is untouched. */
  function ReplaceById(rows: seq<Ticket>, id: string, p: Changes): (r: seq<Ticket>)
    ensures |r| == |rows|
    ensures forall k :: 0 <= k < |rows| && rows[k].id != id ==> r[k] == rows[k]
    ensures forall k :: 0 <= k < |rows| && rows[k].id == id ==> r[k] == ApplyChanges(rows[k], p)
  {
    seq(|rows|, k requires 0 <= k < |rows| => if rows[k].id == id then ApplyChanges(rows[k], p) else rows[k])
  }

  /** `update_ticket`: send the payload to the row with the id; raise when
      the connection is down or no row has that id. */
  function UpdateTicket(link: StorageLink, rows: seq<Ticket>, id: string, args: Changes)
    : (r: Result<(seq<Ticket>, Ticket), StoreError>)
    ensures r.Ok? <==> link.Up? && FindTicket(rows, id).Some?
    ensures link.Up? && FindTicket(rows, id).None? ==> r == Err(NotUpdated(id))
    ensures r.Ok? ==> r.value.1 == ApplyChanges(FindTicket(rows, id).value, BuildPayload(args))
    ensures r.Ok? ==> |r.value.0| == |rows|
    ensures r.Ok? ==> forall k :: 0 <= k < |rows| && rows[k].id != id ==> r.value.0[k] == rows[k]
    ensures r.Ok? ==> forall k :: 0 <= k < |rows| && rows[k].id == id ==>
      r.value.0[k] == ApplyChanges(rows[k], BuildPayload(args))
  {
    match link
    case Down(m) => Err(Unreachable(m))
    case Up =>
      match FindTicket(rows, id)
      case None => Err(NotUpdated(id))
      case Some(t) =>
        var p := BuildPayload(args);
        Ok((ReplaceById(rows, id, p), ApplyChanges(t, p)))
  }

  /** After an update, looking the id up gives the updated row, and ids stay unique. */
  lemma {:induction false} UpdateThenGet(link: StorageLink, rows: seq<Ticket>, id: string, args: Changes)
    requires UniqueIds(rows)
    requires link.Up? && FindTicket(rows, id).Some?
    ensures var (rows', t') := UpdateTicket(link, rows, id, args).value;
      UniqueIds(rows') && FindTicket(rows', id) == Some(t')
  {
    var (rows', t') := UpdateTicket(link, rows, id, args).value;
    var i :| 0 <= i < |rows| && rows[i] == FindTicket(rows, id).value;
    assert rows'[i] == t';
    assert UniqueIds(rows') by {
      forall a, b | 0 <= a < b < |rows'| ensures rows'[a].id != rows'[b].id {
        assert rows'[a].id == rows[a].id && rows'[b].id == rows[b].id;
      }
    }
    FindTicketAt(rows', i);
  }

  /** `mark_as_processed`: `update_ticket` with all eight columns given and
      `processed = True`. */
  function MarkAsProcessed(
    link: StorageLink, rows: seq<Ticket>, id: string,
    category: string, sentiment: string, confidence: real, reasoning: string,
    keywords: seq<string>, processingTimeMs: int, llmModel: string)
    : (r: Result<(seq<Ticket>, Ticket), StoreError>)
    ensures r.Ok? <==> link.Up? && FindTicket(rows, id).Some?
    ensures r.Ok? ==> var t := r.value.1;
      && t.id == id && t.processed
      && t.category == Some(category) && t.sentiment == Some(sentiment) && t.confidence == Some(confidence)
      && t.reasoning == Some(reasoning) && t.keywords == Some(keywords)
      && t.processingTimeMs == Some(processingTimeMs) && t.llmModel == Some(FitModelColumn(llmModel))
      && ClassifiedWhenProcessed(t)
    ensures r.Ok? ==> |r.value.0| == |rows|
    ensures r.Ok? ==> forall k :: 0 <= k < |rows| && rows[k].id != id ==> r.value.0[k] == rows[k]
    ensures r.Ok? ==> forall k :: 0 <= k < |rows| && rows[k].id == id ==>
      r.value.0[k] == rows[k].(category := Some(category), sentiment := Some(sentiment),
                               confidence := Some(confidence), reasoning := Some(reasoning),
                               keywords := Some(keywords), processingTimeMs := Some(processingTimeMs),
                               llmModel := Some(FitModelColumn(llmModel)), processed := true)
    ensures r.Ok? && Consistent(rows) ==> Consistent(r.value.0)
  {
    var args := Changes(Some(category), Some(sentiment), Some(confidence), Some(reasoning),
                        Some(keywords), Some(processingTimeMs), Some(llmModel), Some(true));
    var r := UpdateTicket(link, rows, id, args);
    assert r.Ok? && Consistent(rows) ==> Consistent(r.value.0) by {
      if r.Ok? && Consistent(rows) {
        UpdateThenGet(link, rows, id, args);
      }
    }
    r
  }

  // ---------------------------------------------------------------------
  // Listing
  // ---------------------------------------------------------------------

  /** `get_tickets`' parameters. */
  datatype ListQuery = ListQuery(
    limit: int,
    offset: int,
    processed: Option<bool>,
    category: Option<string>,
    sentiment: Option<string>)

  /** The query's filters: `processed` applies whenever it is given, the
      category and sentiment filters only when given and non-empty. */
  predicate Matches(t: Ticket, q: ListQuery) {
    && (q.processed.Some? ==> t.processed == q.processed.value)
    && (q.category.Some? && q.category.value != "" ==> t.category == q.category)
    && (q.sentiment.Some? && q.sentiment.value != "" ==> t.sentiment == q.sentiment)
  }

  /** The rows that satisfy the query's filters, in table order. */
  function Filter(rows: seq<Ticket>, q: ListQuery): (r: seq<Ticket>)
    ensures |r| <= |rows|
    ensures forall t :: t in r <==> t in rows && Matches(t, q)
    ensures multiset(r) <= multiset(rows)
  {
    if |rows| == 0 then []
    else
      assert rows == [rows[0]] + rows[1..];
      (if Matches(rows[0], q) then [rows[0]] else []) + Filter(rows[1..], q)
  }

  /** `order("created_at", desc=True)`. */
  predicate NewestFirst(rows: seq<Ticket>) {
    forall a, b :: 0 <= a < b < |rows| ==> rows[a].createdAt >= rows[b].createdAt
  }

  function InsertByDate(t: Ticket, rows: seq<Ticket>): (r: seq<Ticket>)
    requires NewestFirst(rows)
    ensures NewestFirst(r)
    ensures multiset(r) == multiset(rows) + multiset{t}
    ensures |r| == |rows| + 1
  {
    if |rows| == 0 || t.createdAt > rows[0].createdAt then [t] + rows
    else
      var tail := InsertByDate(t, rows[1..]);
      assert rows == [rows[0]] + rows[1..];
      NoneNewerThanHead(rows, t, tail);
      [rows[0]] + tail
  }

  /** A rearrangement of a newest-first list's tail plus a row no newer than
      its head holds nothing newer than that head. */
  lemma NoneNewerThanHead(rows: seq<Ticket>, t: Ticket, tail: seq<Ticket>)
    requires NewestFirst(rows) && |rows| > 0 && t.createdAt <= rows[0].createdAt
    requires multiset(tail) == multiset(rows[1..]) + multiset{t}
    ensures forall k :: 0 <= k < |tail| ==> rows[0].createdAt >= tail[k].createdAt
  {
    forall k | 0 <= k < |tail| ensures rows[0].createdAt >= tail[k].createdAt {
      assert tail[k] in multiset(tail);
      if tail[k] != t {
        assert tail[k] in rows[1..];
      }
    }
  }

  /** The rows, newest first. Rows with equal dates come out in an order
      this model fixes but the database does not promise. */
  function SortNewestFirst(rows: seq<Ticket>): (r: seq<Ticket>)
    ensures NewestFirst(r)
    ensures multiset(r) == multiset(rows)
    ensures |r| == |rows|
  {
    if |rows| == 0 then []
    else
      assert rows == [rows[0]] + rows[1..];
      InsertByDate(rows[0], SortNewestFirst(rows[1..]))
  }

  /** `range(offset, offset + limit - 1)`: the rows whose position lies in
      that inclusive range. */
  function Window(rows: seq<Ticket>, offset: int, limit: int): (r: seq<Ticket>)
    ensures |r| <= if limit > 0 then limit else 0
    ensures offset >= |rows| ==> r == []
    ensures 0 <= offset && 0 < limit ==>
      r == rows[Clamp(offset, |rows|)..Clamp(offset + limit, |rows|)]
    ensures 0 <= offset && 0 <= limit && offset + limit <= |rows| ==> r == rows[offset..offset + limit]
    ensures 0 <= offset <= |rows| < offset + limit ==> r == rows[offset..]
    ensures exists lo :: 0 <= lo <= |rows| && r <= rows[lo..]
  {
    var lo := if offset < 0 then 0 else if offset > |rows| then |rows| else offset;
    var end := offset + limit;
    var hi := if end < lo then lo else if end > |rows| then |rows| else end;
    assert rows[lo..hi] <= rows[lo..];
    rows[lo..hi]
  }

  /** A run of consecutive rows of a newest-first sequence is newest first. */
  lemma WindowKeepsOrder(rows: seq<Ticket>, offset: int, limit: int)
    requires NewestFirst(rows)
    ensures NewestFirst(Window(rows, offset, limit))
    ensures forall x :: x in Window(rows, offset, limit) ==> x in rows
  {
    var r := Window(rows, offset, limit);
    var lo :| 0 <= lo <= |rows| && r <= rows[lo..];
    forall a | 0 <= a < |r| ensures r[a] == rows[lo + a] {
      assert r[a] == rows[lo..][a];
    }
  }

  /** `min(n, size)` for a non-negative `n`. */
  function Clamp(n: nat, size: nat): (r: nat)
    ensures r <= size && r <= n
    ensures r == n || r == size
  {
    if n < size then n else size
  }

  /** The page `get_tickets` answers for a query. */
  function Page(rows: seq<Ticket>, q: ListQuery): seq<Ticket> {
    Window(SortNewestFirst(Filter(rows, q)), q.offset, q.limit)
  }

  lemma PageFacts(rows: seq<Ticket>, q: ListQuery)
    ensures var page := Page(rows, q);
      && |page| <= (if q.limit > 0 then q.limit else 0)
      && (forall x :: x in page ==> x in rows && Matches(x, q))
      && NewestFirst(page)
      && (q.offset == 0 && q.limit >= |rows| ==> multiset(page) == multiset(Filter(rows, q)))
  {
    var matching := Filter(rows, q);
    var sorted := SortNewestFirst(matching);
    var page := Window(sorted, q.offset, q.limit);
    WindowKeepsOrder(sorted, q.offset, q.limit);
    forall x | x in page ensures x in rows && Matches(x, q) {
      assert x in multiset(sorted);
      assert x in matching;
    }
    if q.offset == 0 && q.limit >= |rows| {
      assert |sorted| <= |rows|;
      assert page == sorted;
    }
  }

  /** `get_tickets`: filter, newest first, then the page. */
  function GetTickets(link: StorageLink, rows: seq<Ticket>, q: ListQuery): (r: Result<seq<Ticket>, StoreError>)
    ensures link.Down? <==> r.Err?
    ensures r.Ok? ==> |r.value| <= if q.limit > 0 then q.limit else 0
    ensures r.Ok? ==> forall x :: x in r.value ==> x in rows && Matches(x, q)
    ensures r.Ok? ==> NewestFirst(r.value)
    ensures r.Ok? && q.offset == 0 && q.limit >= |rows| ==> multiset(r.value) == multiset(Filter(rows, q))
    ensures r.Ok? ==> r.value == Window(SortNewestFirst(Filter(rows, q)), q.offset, q.limit)
  {
    match link
    case Down(m) => Err(Unreachable(m))
    case Up =>
      PageFacts(rows, q);
      Ok(Page(rows, q))
  }

  // ---------------------------------------------------------------------
  // Statistics and health
  // ---------------------------------------------------------------------

  datatype Stats = Stats(total: int, processed: int, pending: int)

  /** `get_stats`' arithmetic: a missing count reads as 0 and pending is
      what is not processed. */
  function StatsFromCounts(total: Option<int>, processed: Option<int>): (s: Stats)
    ensures s.total == s.processed + s.pending
    ensures total.None? ==> s.total == 0
    ensures processed.None? ==> s.processed == 0
    ensures total.Some? ==> s.total == total.value
    ensures processed.Some? ==> s.processed == processed.value
  {
    var t := total.OrDefault(0);
    var p := processed.OrDefault(0);
    Stats(t, p, t - p)
  }

  function CountProcessed(rows: seq<Ticket>): (n: nat)
    ensures n <= |rows|
  {
    if |rows| == 0 then 0 else (if rows[0].processed then 1 else 0) + CountProcessed(rows[1..])
  }

  function CountPending(rows: seq<Ticket>): (n: nat)
    ensures n <= |rows|
  {
    if |rows| == 0 then 0 else (if rows[0].processed then 0 else 1) + CountPending(rows[1..])
  }

  /** Every row is either processed or pending. */
  lemma {:induction false} ProcessedPlusPending(rows: seq<Ticket>)
    ensures CountProcessed(rows) + CountPending(rows) == |rows|
  {
    if |rows| > 0 {
      ProcessedPlusPending(rows[1..]);
    }
  }

  /** `get_stats` over the table: counts of all rows and of processed rows. */
  function GetStats(link: StorageLink, rows: seq<Ticket>): (r: Result<Stats, StoreError>)
    ensures link.Down? <==> r.Err?
    ensures r.Ok? ==> r.value.total == |rows| && r.value.processed == CountProcessed(rows)
    ensures r.Ok? ==> r.value.pending == CountPending(rows) && r.value.pending >= 0
  {
    match link
    case Down(m) => Err(Unreachable(m))
    case Up =>
      ProcessedPlusPending(rows);
      Ok(StatsFromCounts(Some(|rows|), Some(CountProcessed(rows))))
  }

  /** `health_check`: never raises; true exactly when a query gets through. */
  function StorageHealthy(link: StorageLink): (ok: bool)
    ensures ok <==> link.Up?
  {
    link.Up?
  }

  /** The probe succeeds exactly when the reads do: all of them go through
      the same link. */
  lemma HealthProbeAgreesWithReads(link: StorageLink, rows: seq<Ticket>, id: string, q: ListQuery)
    ensures StorageHealthy(link) <==> GetTicket(link, rows, id).Ok?
    ensures StorageHealthy(link) <==> GetTickets(link, rows, q).Ok?
    ensures StorageHealthy(link) <==> GetStats(link, rows).Ok?
  {
  }
}

=== FILE: tickets_router.dfy ===
/** The `/tickets` endpoints: processing a ticket (look it up, analyse it,
    persist the outcome, answer), reading one ticket, listing and counting.
    Each answers either a 200 body or an HTTP error with its detail. */
module TicketsRouter {
  import opened Basics
  import opened Text
  import opened Models
  import opened AiService
  import opened TicketStore

  /** The body of `POST /tickets/process` as sent; the description is validated
      on the way in. */
  datatype ProcessRequest = ProcessRequest(ticketId: string, description: string)

  /** `ProcessTicketResponse`. */
  datatype ProcessResponse = ProcessResponse(success: bool, ticketId: string, analysis: Analysis, message: string)

  /** An endpoint's answer: a 200 body, a rejected request body (422), or an
      `HTTPException` with its status and detail. */
  datatype Reply<T> =
    | Success(body: T)
    | Invalid(error: DescriptionError)
    | Failure(status: int, detail: string)

  const SuccessMessage := "Ticket procesado exitosamente"
  const InternalErrorPrefix := "Error interno al procesar ticket: "

  function NotFoundDetail(ticketId: string): string {
    "Ticket con ID " + ticketId + " no encontrado"
  }

  /** Stands for `str(e)` of the response model's validation error. The
      real text is pydantic's and is not modelled; this placeholder only
      marks which check failed. */
  function AnalysisErrorMessage(e: AnalysisError): string {
    "confidence out of range for AIAnalysisResult"
  }

  /** The `llm_model` value the endpoint hands to the store: the model names
      joined by ", ", fitted to the column. */
  function ModelsColumn(modelsUsed: seq<string>): (r: string)
    ensures |r| <= ModelColumnWidth
    ensures |modelsUsed| == 2 && |modelsUsed[0]| + |modelsUsed[1]| <= 198 ==>
      r == modelsUsed[0] + ", " + modelsUsed[1]
  {
    assert |modelsUsed| == 2 ==> Join(", ", modelsUsed) == modelsUsed[0] + ", " + modelsUsed[1] by {
      if |modelsUsed| == 2 {
        assert modelsUsed == [modelsUsed[0], modelsUsed[1]];
        JoinTwo(", ", modelsUsed[0], modelsUsed[1]);
      }
    }
    FitModelColumn(Join(", ", modelsUsed))
  }

  /** The endpoint and the store both fit the models string; doing it twice
      gives what doing it once gives. */
  lemma ModelsFittedOnce(modelsUsed: seq<string>)
    ensures FitModelColumn(ModelsColumn(modelsUsed)) == FitModelColumn(Join(", ", modelsUsed))
  {
    FitModelColumnIdempotent(Join(", ", modelsUsed));
  }

  /** The reasoning column: both explanations, labelled, category first. */
  function StoredReasoning(a: Analysis): (r: string)
    ensures "Cat: " <= r
    ensures |a.sentimentReasoning| <= |r| && r[|r| - |a.sentimentReasoning|..] == a.sentimentReasoning
    ensures var n := |a.categoryReasoning|;
      && |r| == 14 + n + |a.sentimentReasoning|
      && r[5..5 + n] == a.categoryReasoning
      && r[5 + n..14 + n] == " | Sent: "
      && r[14 + n..] == a.sentimentReasoning
  {
    var r := "Cat: " + a.categoryReasoning + " | Sent: " + a.sentimentReasoning;
    assert r == ("Cat: " + a.categoryReasoning + " | Sent: ") + a.sentimentReasoning;
    r
  }

  /** The row `process_ticket` writes for an analysis is the row marked
      processed with the analysis' values. */
  predicate RecordsAnalysis(t: Ticket, a: Analysis) {
    && t.processed
    && t.category == Some(CategoryValue(a.category))
    && t.sentiment == Some(SentimentValue(a.sentiment))
    && t.confidence == Some(a.confidence)
    && t.reasoning == Some(StoredReasoning(a))
    && t.keywords == Some(a.keywords)
    && t.processingTimeMs == Some(a.processingTimeMs as int)
    && t.llmModel == Some(ModelsColumn(a.modelsUsed))
  }

  /** Persisting an analysis: `mark_as_processed` with the analysis' values,
      the two reasonings combined and the model names joined. The row with
      the id records the analysis and keeps its own id, date and
      description; every other row is untouched. */
  function RecordAnalysis(write: StorageLink, rows: seq<Ticket>, id: string, a: Analysis)
    : (r: Result<seq<Ticket>, StoreError>)
    ensures r.Ok? <==> write.Up? && FindTicket(rows, id).Some?
    ensures r.Ok? ==> |r.value| == |rows|
    ensures r.Ok? ==> forall k :: 0 <= k < |rows| && rows[k].id != id ==> r.value[k] == rows[k]
    ensures r.Ok? ==> forall k :: 0 <= k < |rows| && rows[k].id == id ==>
      && RecordsAnalysis(r.value[k], a)
      && r.value[k].id == id && r.value[k].createdAt == rows[k].createdAt
      && r.value[k].description == rows[k].description
    ensures r.Ok? && Consistent(rows) ==> Consistent(r.value)
  {
    var marked := MarkAsProcessed(
      write, rows, id,
      CategoryValue(a.category), SentimentValue(a.sentiment), a.confidence,
      StoredReasoning(a), a.keywords, a.processingTimeMs, ModelsColumn(a.modelsUsed));
    ModelsFittedOnce(a.modelsUsed);
    FitModelColumnIdempotent(Join(", ", a.modelsUsed));
    match marked
    case Err(e) => Err(e)
    case Ok((rows', _)) => Ok(rows')
  }

  /** The last steps of `POST /tickets/process`, once the ticket was found
      and analysed: persist the analysis, then build the response, whose
      model rejects a confidence outside [0, 1] — after the row was written. */
  function RecordAndAnswer(write: StorageLink, rows: seq<Ticket>, id: string, a: Analysis)
    : (out: (Reply<ProcessResponse>, seq<Ticket>))
    ensures out.0.Success? <==> write.Up? && FindTicket(rows, id).Some? && 0.0 <= a.confidence <= 1.0
    ensures out.0.Success? ==> out.0.body == ProcessResponse(true, id, a, SuccessMessage)
    ensures !out.0.Invalid? && (out.0.Failure? ==> out.0.status == 500)
    ensures write.Up? && FindTicket(rows, id).Some? ==> out.1 == RecordAnalysis(write, rows, id, a).value
    ensures !(write.Up? && FindTicket(rows, id).Some?) ==> out.1 == rows
    ensures write.Down? ==> out.0 == Failure(500, InternalErrorPrefix + write.message)
    ensures write.Up? && FindTicket(rows, id).None? ==>
      out.0 == Failure(500, InternalErrorPrefix + "No se pudo actualizar el ticket " + id)
    ensures write.Up? && FindTicket(rows, id).Some? && !(0.0 <= a.confidence <= 1.0) ==>
      out.0 == Failure(500, InternalErrorPrefix + AnalysisErrorMessage(ConfidenceOutOfRange(a.confidence)))
  {
    match RecordAnalysis(write, rows, id, a)
    case Err(e) => (Failure(500, InternalErrorPrefix + ErrorMessage(e)), rows)
    case Ok(rows') =>
      match CheckAnalysis(a)
      case Err(e) => (Failure(500, InternalErrorPrefix + AnalysisErrorMessage(e)), rows')
      case Ok(checked) => (Success(ProcessResponse(true, id, checked, SuccessMessage)), rows')
  }

  /** `POST /tickets/process` once the request body was accepted: obtain the
      analysis service (`ai` is the outcome of that), look the ticket up
      over `lookup`, analyse the cleaned description, then record and answer
      over `write`. A missing ticket answers 404 and writes nothing; every
      other failure answers 500. */
  function ProcessValidRequest(
    ai: Result<Engines, string>, lookup: StorageLink, write: StorageLink,
    rows: seq<Ticket>, id: string, description: string, t: Timings)
    : (out: (Reply<ProcessResponse>, seq<Ticket>))
    ensures out.0 == Failure(404, NotFoundDetail(id)) <==> ai.Ok? && lookup.Up? && FindTicket(rows, id).None?
    ensures !out.0.Invalid? && (out.0.Failure? ==> out.0.status == 404 || out.0.status == 500)
    ensures out.0 == Failure(404, NotFoundDetail(id)) ==> out.1 == rows
    ensures out.0.Success? <==>
      && ai.Ok? && lookup.Up? && write.Up? && FindTicket(rows, id).Some?
      && 0.0 <= ProcessTicket(ai.value, description, t).confidence <= 1.0
    ensures out.0.Success? ==>
      out.0.body == ProcessResponse(true, id, ProcessTicket(ai.value, description, t), SuccessMessage)
    ensures ai.Ok? && lookup.Up? && write.Up? && FindTicket(rows, id).Some? ==>
      out.1 == RecordAnalysis(write, rows, id, ProcessTicket(ai.value, description, t)).value
    ensures !(ai.Ok? && lookup.Up? && write.Up? && FindTicket(rows, id).Some?) ==> out.1 == rows
    ensures ai.Err? ==> out.0 == Failure(500, InternalErrorPrefix + ai.error)
    ensures ai.Ok? && lookup.Down? ==> out.0 == Failure(500, InternalErrorPrefix + lookup.message)
    ensures ai.Ok? && lookup.Up? && FindTicket(rows, id).Some? ==>
      out == RecordAndAnswer(write, rows, id, ProcessTicket(ai.value, description, t))
  {
    match ai
    case Err(m) => (Failure(500, InternalErrorPrefix + m), rows)
    case Ok(eng) =>
      match GetTicket(lookup, rows, id)
      case Err(e) => (Failure(500, InternalErrorPrefix + ErrorMessage(e)), rows)
      case Ok(None) => (Failure(404, NotFoundDetail(id)), rows)
      case Ok(Some(_)) => RecordAndAnswer(write, rows, id, ProcessTicket(eng, description, t))
  }

  /** `POST /tickets/process`: a description the request model rejects
      answers 422 and reaches nothing else; an accepted one is processed in
      its cleaned form. */
  function ProcessTicketEndpoint(
    ai: Result<Engines, string>, lookup: StorageLink, write: StorageLink,
    rows: seq<Ticket>, req: ProcessRequest, t: Timings)
    : (out: (Reply<ProcessResponse>, seq<Ticket>))
    ensures out.0.Invalid? <==> ValidateDescription(req.description).Err?
    ensures out.0.Invalid? ==> out.0.error == ValidateDescription(req.description).error && out.1 == rows
    ensures !out.0.Invalid? ==>
      out == ProcessValidRequest(ai, lookup, write, rows, req.ticketId, Strip(req.description), t)
  {
    match ValidateDescription(req.description)
    case Err(e) => (Invalid(e), rows)
    case Ok(description) => ProcessValidRequest(ai, lookup, write, rows, req.ticketId, description, t)
  }

  /** A successful answer describes what is now stored: the ticket's row
      records exactly the analysis returned, and keeps its description. */
  lemma {:induction false} AnsweredAnalysisIsStored(rows: seq<Ticket>, id: string, a: Analysis)
    requires Consistent(rows) && FindTicket(rows, id).Some?
    requires 0.0 <= a.confidence <= 1.0
    ensures var (reply, rows') := RecordAndAnswer(Up, rows, id, a);
      && reply.Success?
      && Consistent(rows')
      && FindTicket(rows', id).Some?
      && RecordsAnalysis(FindTicket(rows', id).value, reply.body.analysis)
      && FindTicket(rows', id).value.description == FindTicket(rows, id).value.description
  {
    var (reply, rows') := RecordAndAnswer(Up, rows, id, a);
    var i := IndexOf(rows, id);
    assert rows'[i].id == id && RecordsAnalysis(rows'[i], a);
    FindTicketAt(rows', i);
    FindTicketAt(rows, i);
  }

  /** The response model rejects a confidence outside [0, 1] only after the
      row was written: the client gets a 500, yet the ticket is stored as
      processed with that confidence. `AiService.LlmConfidenceNotClamped`
      shows the analysis can carry such a confidence. */
  lemma {:induction false} RejectedAfterPersisting(rows: seq<Ticket>, id: string, a: Analysis)
    requires Consistent(rows) && FindTicket(rows, id).Some?
    requires a.confidence > 1.0
    ensures var (reply, rows') := RecordAndAnswer(Up, rows, id, a);
      && reply.Failure? && reply.status == 500
      && FindTicket(rows', id).Some? && FindTicket(rows', id).value.processed
      && FindTicket(rows', id).value.confidence == Some(a.confidence)
  {
    var (reply, rows') := RecordAndAnswer(Up, rows, id, a);
    var i := IndexOf(rows, id);
    assert rows'[i].id == id && RecordsAnalysis(rows'[i], a);
    FindTicketAt(rows', i);
  }

  /** The position of a present id. */
  function IndexOf(rows: seq<Ticket>, id: string): (i: nat)
    requires FindTicket(rows, id).Some?
    ensures i < |rows| && rows[i].id == id
  {
    if rows[0].id == id then 0 else 1 + IndexOf(rows[1..], id)
  }

  /** `GET /tickets/{id}`. */
  function GetTicketEndpoint(link: StorageLink, rows: seq<Ticket>, ticketId: string): (r: Reply<Ticket>)
    ensures r.Success? <==> link.Up? && FindTicket(rows, ticketId).Some?
    ensures r.Success? ==> r.body.id == ticketId && r.body in rows
    ensures r.Failure? && r.status == 404 <==> link.Up? && FindTicket(rows, ticketId).None?
    ensures r.Failure? && r.status == 404 ==> r.detail == "Ticket " + ticketId + " no encontrado"
    ensures link.Down? ==> r == Failure(500, link.message)
    ensures !r.Invalid?
  {
    match GetTicket(link, rows, ticketId)
    case Err(e) => Failure(500, ErrorMessage(e))
    case Ok(None) => Failure(404, "Ticket " + ticketId + " no encontrado")
    case Ok(Some(ticket)) => Success(ticket)
  }

  datatype ListBody = ListBody(success: bool, count: nat, tickets: seq<Ticket>)

  /** `GET /tickets/`: the page and its size. */
  function ListTicketsEndpoint(link: StorageLink, rows: seq<Ticket>, q: ListQuery): (r: Reply<ListBody>)
    ensures r.Success? <==> link.Up?
    ensures r.Success? ==> r.body.success && r.body.count == |r.body.tickets|
    ensures r.Success? ==> forall x :: x in r.body.tickets ==> x in rows && Matches(x, q)
    ensures r.Success? && q.processed == Some(true) ==> forall x :: x in r.body.tickets ==> x.processed
    ensures r.Success? ==> r.body.count <= if q.limit > 0 then q.limit else 0
    ensures r.Success? ==> r.body.tickets == Page(rows, q)
    ensures link.Down? ==> r == Failure(500, link.message)
  {
    match GetTickets(link, rows, q)
    case Err(e) => Failure(500, ErrorMessage(e))
    case Ok(tickets) => Success(ListBody(true, |tickets|, tickets))
  }

  datatype StatsBody = StatsBody(success: bool, stats: Stats)

  /** `GET /tickets/stats/overview`. */
  function StatsEndpoint(link: StorageLink, rows: seq<Ticket>): (r: Reply<StatsBody>)
    ensures r.Success? <==> link.Up?
    ensures r.Success? ==> r.body.success && r.body.stats.total == |rows|
    ensures r.Success? ==> r.body.stats.total == r.body.stats.processed + r.body.stats.pending
    ensures r.Success? ==> r.body.stats.pending == CountPending(rows)
    ensures link.Down? ==> r == Failure(500, link.message)
  {
    match GetStats(link, rows)
    case Err(e) => Failure(500, ErrorMessage(e))
    case Ok(stats) => Success(StatsBody(true, stats))
  }
}
